=== FILE: README.md ===
# IB Questions Practice — progress and selection core in Dafny

This project models the engine behind the IB Questions Practice quiz. The
engine keeps per-user progress on exam questions, two subjects (Chemistry
and Physics), and decides which question a user is shown next. The
modelled parts are:

- **Progress tracker** (`progress.dfy`). A progress table per subject, keyed
  by question id. It has the upserts behind "answer" and "lacking context",
  the two deletions (reset and remove-from-history), the validity filter
  `should_exclude_question`, and the progress counts.
- **Schema and subject dispatch** (`schema.dfy`). The column defaults of the
  progress tables, the question banks, and the rule that "Chemistry" selects
  the chemistry store and any other string the physics one.
- **Selection engine** (`selection.dfy`). The three selectors: random, by
  paper, by syllabus. Each keeps the bank's questions that match its filter
  and that the user has not reviewed, then draws one. Also the sorted,
  distinct list of syllabus links.
- **Syllabus browser** (`hierarchy.dfy`). `build_syllabus_hierarchy` parses
  `||`-separated and `»`-separated links into a tree of insertion-ordered
  dictionaries. `render_syllabus_hierarchy` walks that tree, at most ten
  levels deep, and joins the chosen labels with `" » "`.
- **Read-side views** (`views.dfy`). The progress-bar ratio guard, the
  "Recently Answered Questions" history, and the analytics totals.
- **Sessions** (`session.dfy`). Any sequence of the tracker's writes,
  replayed from the empty database. The states such a sequence can reach
  fix what every view shows.
- **Helpers**. `text.dfy` holds the Python string operations the core uses
  (`strip`, `split`, `join`, `in`, `isdigit`, sorting). `wrappers.dfy` holds
  an `Option` type.

The tracker's writes are modelled literally:

- A progress row is keyed by `question_id` alone, so an upsert by one user
  takes over another user's row.
- Every outcome sets `lacking_context = 1` and no counter is ever
  incremented. Consequences proved in `session.dfy`:
  - the progress numerator stays 0;
  - the analytics totals stay 0;
  - every history line shows zero counts.
- Removing a question from history deletes from the chemistry table even
  when the physics history is shown.

Two facts about the code shape the model:

- Both progress tables declare `question_id` alone as their primary key
  (backend/database.py:35 and :48). The upsert's `ON CONFLICT(question_id)`
  therefore replaces whichever user owned the row, and the model keeps one
  row per question.
- `remove_question_from_progress` takes no subject and always deletes from
  `user_progress_chemistry` (progress.py:244-248). The history view calls it
  the same way for both subjects (streamlit_app.py:400-401).

Modelling choices:

- The draw of `ORDER BY RANDOM() LIMIT 1` is an oracle `pick`. The result is
  `candidates[pick % |candidates|]`, so each contract holds for every
  possible draw, and a lemma shows every candidate can be drawn.
- `CURRENT_TIMESTAMP` is an integer parameter `now`.
- The order in which SQLite scans a table is an input `scan`, a sequence
  listing each key exactly once.
- The drop-down choices are a map `prior` from level to the label the
  session remembers.

## Model

| member | source | states |
|---|---|---|
| Schema.SubjectOf | backend/database.py:22-26 | "Chemistry" selects the chemistry store, and every other string (including "Physics" and unknown names) selects the physics store |
| Schema.DefaultRow | backend/database.py:35-42 | a row created by an insert that names only the id, user and time has zero counters, is neither reviewed nor lacking context, and carries that user and time |
| Progress.Upsert | progress.py:11-27 | the upsert leaves the row for q reviewed, lacking context, owned by u and stamped now; it keeps the counters of an existing row, gives a fresh row zero counters, adds only key q and leaves every other row unchanged |
| Progress.MarkAsLackingContext | progress.py:3-48 | after marking, the subject's table has a row for q that is reviewed, lacking context, owned by u and stamped with the current time; counters are kept on conflict and 0 on insert; no other row and no other subject's table changes |
| Progress.UpdateProgress | progress.py:66-187 | each of the three outcome statuses has exactly the effect of a lacking-context mark; any other status leaves the whole store unchanged |
| Progress.DeleteUser | progress.py:59 | after the delete no row belongs to u, every row of another user is kept unchanged, and every remaining row is an original row of another user, unchanged |
| Progress.ResetProgress | progress.py:50-64 | the subject's table keeps exactly the other users' rows, unchanged: every row of another user stays and every remaining row is an original row of another user; the other subject's table is untouched |
| Progress.RemoveQuestionFromProgress | progress.py:237-250 | q stays in the chemistry table exactly when its row belongs to another user; every other chemistry row is kept; every row that remains is unchanged; the physics table is never changed |
| Progress.AnswerIsLackingContextMark | progress.py:74-184 | an answered question's row is lacking context and reviewed, and an existing row's counters are not changed by any outcome |
| Progress.UpsertIdempotent | progress.py:20-26 | repeating the upsert equals doing it once at the later time: only the timestamp moves |
| Progress.UpsertTakesOverRow | progress.py:20-23 | an upsert for a question another user had reviewed hands the row, with its counters, to the new user |
| Progress.ResetIdempotent | progress.py:58-61 | a second reset of the same user and subject changes nothing |
| Progress.RemoveIgnoresPhysics | progress.py:244-248 | a physics row of the user for q survives removal from history |
| Progress.ShouldExcludeQuestion | progress.py:221-235 | paper "1B" is never excluded; any other question is excluded exactly when the text after the last "." of its reference code is not a non-empty string of digits |
| Progress.LastPartIsSuffixAfterLastDot | progress.py:232 | `split(".")[-1]` is the suffix that follows the last "." (the whole code when there is none) |
| Progress.ValidityExampleNumeric | progress.py:232-235 | "12.3.4" on paper 1A is kept |
| Progress.ValidityExampleNonNumeric | progress.py:232-235 | "12.3.x" on paper 1A is excluded |
| Progress.ValidityExampleEmptyLastPart | progress.py:232-235 | "12.3." on paper 1A is excluded, since an empty last part is not numeric |
| Progress.CountValid | progress.py:204-207 | the valid count never exceeds the bank size; it equals it exactly when no question is excluded, and is 0 exactly when every question is excluded (so one question counts 1 when valid and 0 when excluded) |
| Progress.CountValidAppend | progress.py:204-207 | the valid count of two banks together is the sum of their valid counts; with the one-question case this makes it the number of valid questions |
| Progress.GetProgress | progress.py:189-219 | reviewed is the number of the user's rows that are reviewed and not lacking context, so it is at most the number of reviewed rows; total is the number of valid questions of the subject's bank, so at most the bank size and equal to it exactly when no question is excluded |
| Progress.MarkLeavesNumerator | progress.py:210-214 | a marked question is not counted as reviewed progress, yet remains among the user's reviewed rows |
| Selection.ExcludedIds | backend/question_handler.py:28-38 | the excluded ids are exactly the ids of the subject's table whose row is reviewed and belongs to the user |
| Selection.LinkMatches | backend/question_handler.py:147-157 | a link matches exactly when it is not NULL and contains the target, so the second `LIKE '%\|\|t%'` pattern never adds a match |
| Selection.Candidates | backend/question_handler.py:40-57 | a question is a candidate exactly when it is in the bank, matches the filter and its id is not excluded |
| Selection.Draw | backend/question_handler.py:46-59 | fetching one row gives None exactly when there are no candidates, and otherwise one of the candidates |
| Selection.Select | backend/question_handler.py:28-59 | a selector's result is a bank question that matches the filter and is not excluded; None exactly when no bank question is both matching and not excluded |
| Selection.GetRandomQuestion | backend/question_handler.py:20-63 | the result is an unreviewed bank question, and None exactly when every question of the bank is reviewed by the user |
| Selection.GetRandomQuestionByPaper | backend/question_handler.py:65-107 | the result has the requested paper and is unreviewed; None exactly when every question of that paper is reviewed |
| Selection.GetQuestionsBySyllabus | backend/question_handler.py:122-175 | the result's link holds the stripped target and the result is unreviewed; None exactly when every such question is reviewed |
| Selection.PipePatternSubsumed | backend/question_handler.py:156 | a link matching the `%||t%` pattern also matches `%t%`, so the second pattern admits nothing new |
| Selection.PickFor | backend/question_handler.py:46-47 | for each candidate there is a draw that returns it |
| Selection.EveryCandidateCanBeDrawn | backend/question_handler.py:40-57 | any unreviewed question can be served, including questions the validity filter of the progress counts rejects |
| Selection.EveryPaperCandidateCanBeDrawn | backend/question_handler.py:83-102 | any unreviewed question can be served by the selector for its own paper |
| Selection.MarkedQuestionNotServed | backend/question_handler.py:28-38 | after a lacking-context mark no selector serves that question to that user in that subject |
| Selection.ResetRestoresPool | backend/question_handler.py:50-57 | after a reset nothing is excluded for the user, and the random selector returns None only for an empty bank |
| Selection.RemoveReadmitsChemistryOnly | progress.py:244-248 | removal re-admits the question for the user in chemistry and leaves the physics exclusions as they were |
| Selection.AnswerReadmitsForOtherUser | progress.py:85-88 | one user's answer removes the question from another user's exclusions, because the row changes owner |
| Selection.SyllabusMatchExamples | backend/question_handler.py:151 | both alternatives of "A » B\|\|C » D" match, and the reversed path "B » A" does not |
| Selection.GetAllSyllabusLinks | backend/question_handler.py:109-120 | the links are strictly ascending, and a string is listed exactly when it is the stripped link of some question with a link |
| Selection.SortedLinks | backend/question_handler.py:116-120 | collecting stripped non-NULL links into a set and sorting gives a strictly ascending list of exactly those strings |
| Selection.ListedLinkFindsItsQuestion | backend/question_handler.py:109-175 | the stripped link of each question is listed, and passing it back to the syllabus selector returns a question whenever the question is unreviewed |
| Selection.SyllabusLinksDistinct | backend/question_handler.py:117 | no link is listed twice |
| Text.Strip | backend/question_handler.py:144 | the result is one contiguous stretch of the input with only whitespace before and after it, and it has no whitespace at either end, so exactly the leading and trailing whitespace is removed; it is empty exactly when the input is all whitespace |
| Text.StripIdempotent | backend/question_handler.py:144 | stripping twice is stripping once, so the selector's strip leaves a listed link unchanged |
| Text.SplitJoin | progress.py:232 | joining the pieces of a split with the separator gives back the input |
| Text.SplitAtFirstOccurrence | streamlit_app.py:181 | for any separator, such as "||", the first piece is the text before the first occurrence and the remaining pieces are those of the text after it |
| Text.InsertSorted | backend/question_handler.py:120 | inserting into a strictly ascending list keeps it strictly ascending and adds exactly the new element |
| Hierarchy.ChildOf | streamlit_app.py:187 | a label has a child dictionary exactly when it is among the keys |
| Hierarchy.Insert | streamlit_app.py:185-189 | following a path adds its first label at the end of the keys when it is new, and otherwise keeps the keys and their order |
| Hierarchy.InsertIn | streamlit_app.py:186-189 | a dictionary's keys keep their insertion order, and a new label is appended |
| Hierarchy.NonBlankStripped | streamlit_app.py:181 | the kept pieces are non-empty and stripped, and there are no more of them than the input pieces |
| Hierarchy.NonBlankStrippedMembers | streamlit_app.py:181 | a string is kept exactly when it is the non-empty stripped form of some input piece |
| Hierarchy.NonBlankStrippedAppend | streamlit_app.py:181 | the kept pieces keep the input order: those of a concatenation are those of its front followed by those of its back |
| Hierarchy.ParsePath | streamlit_app.py:184 | every parsed part is non-empty, stripped and free of "»" |
| Hierarchy.ParsePathNoArrow | streamlit_app.py:184 | an alternative without "»" yields its stripped text as its one label, or no label when it is blank |
| Hierarchy.ParsePathAtArrow | streamlit_app.py:184 | the text before the first "»" gives the first label (none when blank), followed by the labels of the rest, in order |
| Hierarchy.ParsePathAvoids | streamlit_app.py:184 | parsing creates no substring, such as "\|\|", that the alternative lacks |
| Hierarchy.ParseAll | streamlit_app.py:182-184 | each alternative yields its own parsed path, in order |
| Hierarchy.InAllPaths | streamlit_app.py:179-184 | a label path is collected exactly when some link contributes it |
| Hierarchy.EmptyTrieHasOnlyRoot | streamlit_app.py:178 | the empty hierarchy has only the empty path |
| Hierarchy.ChildOfInsertIn | streamlit_app.py:187-189 | after inserting, the first label leads to its extended child and every other label to what it led to before |
| Hierarchy.InsertHasPath | streamlit_app.py:185-189 | after inserting a path, the paths of the tree are the old ones plus the prefixes of the inserted path, and nothing else |
| Hierarchy.InsertAllHasPath | streamlit_app.py:179-189 | after inserting a list of paths, a path exists exactly when it existed before or is a prefix of one of them |
| Hierarchy.BuildPaths | streamlit_app.py:178-190 | the built hierarchy offers a label path exactly when it is empty or a prefix of some collected path |
| Hierarchy.InsertExisting | streamlit_app.py:186-189 | inserting a path the tree already has changes nothing |
| Hierarchy.InsertAllExisting | streamlit_app.py:182-189 | inserting paths that all exist changes nothing |
| Hierarchy.AlternativeIsRootPath | streamlit_app.py:179-189 | for every link and every non-blank alternative between its "\|\|" separators, the labels of that alternative form a path from the root of the built hierarchy |
| Hierarchy.RepeatedLinkChangesNothing | streamlit_app.py:179-190 | appending a link already in the input leaves the hierarchy unchanged |
| Hierarchy.InsertWellFormed | streamlit_app.py:186-188 | inserting a path of valid labels keeps every dictionary's keys distinct and valid |
| Hierarchy.InsertAllWellFormed | streamlit_app.py:182-189 | the same holds after a whole list of valid paths |
| Hierarchy.LinkPathsValid | streamlit_app.py:181-184 | every label a link contributes is non-empty, stripped, and holds neither "»" nor "\|\|" |
| Hierarchy.AllPathsValid | streamlit_app.py:179-184 | the same holds for the labels of all links |
| Hierarchy.BuildSyllabusHierarchy | streamlit_app.py:173-190 | the built hierarchy is well formed: every key is non-empty and stripped, holds neither "»" nor "\|\|", and is unique in its dictionary; which label paths it offers is stated by BuildPaths |
| Hierarchy.RenderParts | streamlit_app.py:196-222 | the rendered path has at most ten parts, each a key of the dictionary the previous parts reach, and it stops early only at an empty dictionary; at every level the choice is the remembered label when it is an option, else the first option |
| Hierarchy.RenderCharacterised | streamlit_app.py:200-222 | any path that follows that choice rule and stops where rendering must stop is the rendered path |
| Hierarchy.RememberedPathFollowsDefaults | streamlit_app.py:209-216 | a path of the tree whose labels the session remembers level by level is the path the choice rule picks |
| Hierarchy.RenderKeepsSessionPath | streamlit_app.py:209-216 | when the session remembers a complete path of the tree, rendering shows exactly that path again |
| Hierarchy.ParsePaddedJoin | streamlit_app.py:225 | labels joined with " » " (after any leading whitespace) split on "»" and strip back into the same labels |
| Hierarchy.RenderSyllabusHierarchy | streamlit_app.py:192-225 | for a well-formed hierarchy, such as a built one, splitting the returned string on "»" and stripping the pieces gives back exactly the selected labels, so the string determines the choice RenderParts characterises |
| Hierarchy.JoinedPathParses | streamlit_app.py:224-225 | the labels along any path of a well-formed hierarchy, joined with " » ", parse back into that path |
| Hierarchy.PathKeysValid | streamlit_app.py:205-222 | every label along a path of a well-formed hierarchy is a valid key |
| Views.ProgressRatio | streamlit_app.py:125 | the ratio is 0 when there are no valid questions, and otherwise multiplies back to the reviewed count |
| Views.RatioInUnitInterval | streamlit_app.py:123-125 | while reviewed does not exceed total, the ratio is a valid progress-bar value in [0, 1] |
| Views.InHistory | streamlit_app.py:349 | a row passes the history filter exactly when its id is among the user's reviewed ids, the same set the selectors leave out |
| Views.HistoryIds | streamlit_app.py:349 | an id passes the filter exactly when its row belongs to the user and is reviewed; no id repeats |
| Views.SortDescending | streamlit_app.py:350 | the rows are a permutation of the input (same multiset) in `updated_at` descending order |
| Views.InsertDescendingSorted | streamlit_app.py:350 | inserting a row by timestamp keeps the descending order |
| Views.RecentHistory | streamlit_app.py:341-368 | the history has min(30, number of the user's reviewed rows) rows, each the stored row of a distinct reviewed question of the user, newest first; every row left out is no newer than any row kept |
| Views.HistoryKeepsMostRecent | streamlit_app.py:350-351 | the LIMIT keeps the most recent rows: an omitted reviewed row is no newer than any listed row |
| Views.LookupQuestion | streamlit_app.py:385-390 | the lookup finds a bank question with that id, and gives None exactly when the bank has none |
| Views.Resolve | streamlit_app.py:383-414 | every displayed entry comes from a history row whose question exists, and every such row is displayed; rows whose question is gone are dropped |
| Views.ResolveKeepsOrder | streamlit_app.py:404-414 | dropping rows keeps the newest-first order |
| Views.ResolveSingle | streamlit_app.py:383-414 | one history row gives one entry built from it and its question when the question exists, and nothing otherwise |
| Views.ResolveAppend | streamlit_app.py:383-414 | the loop handles rows one at a time in order: the entries of two runs of rows are those of the first followed by those of the second |
| Views.ResolveDistinct | streamlit_app.py:383-414 | history rows of distinct questions give entries of distinct questions |
| Views.ShowHistory | streamlit_app.py:326-429 | None for a subject other than Chemistry or Physics; otherwise at most 30 entries, each a reviewed question of the user that exists in the bank, and the entries are exactly those Resolve builds from the rows RecentHistory returns, in that order |
| Views.HistoryListsResolvableRows | streamlit_app.py:382-414 | every history row whose question exists is displayed, every displayed entry is built from one such row and its question, the list is newest first, and no question is displayed twice |
| Views.UserIds | streamlit_app.py:440 | an id is kept exactly when the scan holds it and its row belongs to the user; for a scan without repeats no id is kept twice, so each of the user's rows enters the sums once |
| Views.Column | streamlit_app.py:438 | a column holds the chosen counter of each listed row |
| Views.SqlSum | streamlit_app.py:438 | SQL SUM is NULL exactly over no rows |
| Views.SqlSumOrZero | streamlit_app.py:452-454 | `SUM(x) or 0` equals the ordinary sum, with 0 for no rows |
| Views.ShowAnalytics | streamlit_app.py:431-454 | None for a subject other than Chemistry or Physics; otherwise the three totals are the sums of the user's counters, with NULL read as 0 |
| Views.UserColumnBounds | streamlit_app.py:436-454 | a counter that is zero in all of the user's rows totals 0, and one that is never negative totals at least 0 |
| Session.Step | progress.py:3-250 | each write of the tracker keeps every row reviewed, lacking context and with zero counters |
| Session.Run | progress.py:3-250 | a sequence of writes keeps that shape |
| Session.RunAppend | progress.py:3-250 | replaying two sessions in turn equals replaying their concatenation |
| Session.ReachableIsSettled | progress.py:19-26 | every store reachable from the empty database has only reviewed, lacking-context rows with zero counters |
| Session.SettledNumeratorIsZero | progress.py:210-214 | in such a store the progress numerator is 0 |
| Session.ProgressNeverAdvances | progress.py:211 | however many questions a user answers, the progress numerator of every subject stays 0 |
| Session.AnalyticsStayZero | streamlit_app.py:436-454 | however many questions are answered, the analytics report 0 correct, 0 partial and 0 incorrect |
| Session.HistoryShowsZeroCounts | streamlit_app.py:343-347 | in a reachable store every history line shows zero for all three outcomes |
| Session.AnsweredStaysExcluded | backend/question_handler.py:28-38 | an answered question stays excluded for the user until a reset or a removal, provided no other user writes in between |

## Left out

- Streamlit rendering and widgets are left out: `st.*`, buttons, `st.rerun`, `display_question`, `debug_syllabus_hierarchy`, and session-state bookkeeping other than the remembered drop-down labels. They are UI code.
- CSS inlining (`apply_css_to_html`) is left out because it is file I/O. The login, signup and bcrypt hashing of backend/auth.py are left out because they are UI code and a foreign library.
- SQLite connections, commits and file paths are left out. Each call is one atomic transition of an immutable store.
- `fetch_question_by_id_chem` is left out. It is a plain lookup that the core does not use.
- The debugging `print` in `get_questions_by_syllabus` is left out.
- The float division and the bar chart are left out. Only the `total > 0` guard is modelled, as an exact real ratio.
- NULL `user_id` and NULL counters are left out. The writes always set `user_id`, and the counters have default 0.
- `updated_at` is an integer. Its text format, and the fact that text order matches time order, are not modelled.
- Selection.Select: only membership is stated, not the uniform distribution of `ORDER BY RANDOM()`, which a value-level model cannot express.
- Selection.Select: the selectors build `id NOT IN (?, ?, …)` with one host parameter per reviewed id, so SQLite refuses the statement ("too many SQL variables") once the reviewed ids exceed its host-parameter limit (999 before version 3.32, 32766 after). The model has no such bound and always answers.
- Selection.GetQuestionsBySyllabus: SQLite `LIKE` is modelled as exact substring containment. Its ASCII case-insensitivity is not modelled, and neither are `%` and `_` inside the target acting as wildcards.
- Text.Strip: only ASCII whitespace counts. The Unicode whitespace that Python's `str.strip` also removes does not.
- Progress.ShouldExcludeQuestion: only ASCII '0'..'9' count as digits. The other Unicode digits that `str.isdigit` accepts do not.
- Views.RecentHistory: rows with equal `updated_at` appear in table-scan order, which is an input here. The contract does not fix their relative order, just as SQL does not.
- Hierarchy.RenderParts: Streamlit's own reaction to a remembered value that is no longer an option is not modelled. The model takes the source's fallback to the first option.
- Views.ShowHistory: the "Show Question" and "Remove from History" buttons drawn per row are left out. Removal itself is `Progress.RemoveQuestionFromProgress`.
- Views.ShowAnalytics and Views.ShowHistory: for an unknown subject the source executes a `None` query, which raises. The model returns `None` instead.

=== FILE: hierarchy.dfy ===
/** The syllabus browser of streamlit_app.py: `build_syllabus_hierarchy`
    turns the syllabus links of a bank into a tree of nested, insertion
    ordered dictionaries, and `render_syllabus_hierarchy` walks that tree
    one drop-down per level and joins the chosen labels with " » ". */
module Hierarchy {
  import opened Wrappers
  import opened Text

  /** The level separator "»" (U+00BB) inside one syllabus link. */
  const Arrow: char := '\U{BB}'
  /** The separator between the alternatives of a multi-valued link. */
  const LinkSeparator := "||"
  /** The separator the rendered selection is joined with. */
  const DisplaySeparator := " \U{BB} "
  /** `for depth in range(10)`: at most ten levels are rendered. */
  const MaxDepth: nat := 10

  /** A dictionary of the hierarchy: its entries in insertion order. */
  datatype Entry = Entry(key: string, child: Trie)
  datatype Trie = Node(entries: seq<Entry>)

  const EmptyTrie := Node([])

  function KeysOf(es: seq<Entry>): (ks: seq<string>)
    ensures |ks| == |es|
    ensures forall i :: 0 <= i < |es| ==> ks[i] == es[i].key
  {
    if |es| == 0 then [] else [es[0].key] + KeysOf(es[1..])
  }

  /** `current_level[k]` when `k in current_level`. */
  function ChildOf(es: seq<Entry>, k: string): (r: Option<Trie>)
    ensures r.None? <==> k !in KeysOf(es)
  {
    if |es| == 0 then None
    else if es[0].key == k then Some(es[0].child)
    else ChildOf(es[1..], k)
  }

  /** The path of labels `p` can be followed from the root of `t`. */
  predicate HasPath(t: Trie, p: seq<string>)
    decreases |p|
  {
    |p| == 0 || (ChildOf(t.entries, p[0]).Some? && HasPath(ChildOf(t.entries, p[0]).value, p[1..]))
  }

  /** The dictionary reached by following `p`. */
  function NodeAt(t: Trie, p: seq<string>): Trie
    requires HasPath(t, p)
    decreases |p|
  {
    if |p| == 0 then t else NodeAt(ChildOf(t.entries, p[0]).value, p[1..])
  }

  /** The inner loop of `build_syllabus_hierarchy`: follow the labels of
      `p`, creating an empty dictionary under every label not yet present. */
  function Insert(t: Trie, p: seq<string>): (r: Trie)
    decreases |p|, |t.entries| + 1
    ensures |p| == 0 ==> r == t
    ensures |p| > 0 ==> KeysOf(r.entries) == KeysOf(t.entries) + (if p[0] in KeysOf(t.entries) then [] else [p[0]])
  {
    if |p| == 0 then t else Node(InsertIn(t.entries, p))
  }

  function InsertIn(es: seq<Entry>, p: seq<string>): (r: seq<Entry>)
    requires |p| > 0
    decreases |p|, |es|
    ensures KeysOf(r) == KeysOf(es) + (if p[0] in KeysOf(es) then [] else [p[0]])
  {
    if |es| == 0 then [Entry(p[0], Insert(EmptyTrie, p[1..]))]
    else if es[0].key == p[0] then [Entry(p[0], Insert(es[0].child, p[1..]))] + es[1..]
    else [es[0]] + InsertIn(es[1..], p)
  }

  function InsertAll(t: Trie, ps: seq<seq<string>>): Trie
    decreases |ps|
  {
    if |ps| == 0 then t else InsertAll(Insert(t, ps[0]), ps[1..])
  }

  // ---------------------------------------------------------------------
  // Parsing a syllabus link
  // ---------------------------------------------------------------------

  /** A label as the "»"-parser produces it: non-empty, stripped, and
      free of "»". */
  predicate Label(k: string) {
    |k| > 0 && Stripped(k) && Arrow !in k
  }

  /** A key of the built hierarchy: a label that also holds no "||". */
  predicate ValidKey(k: string) {
    Label(k) && !Contains(k, LinkSeparator)
  }

  /** `[x.strip() for x in pieces if x.strip()]`. */
  function NonBlankStripped(pieces: seq<string>): (r: seq<string>)
    ensures |r| <= |pieces|
    ensures forall i :: 0 <= i < |r| ==> |r[i]| > 0 && Stripped(r[i])
  {
    if |pieces| == 0 then []
    else
      var h := Strip(pieces[0]);
      var rest := NonBlankStripped(pieces[1..]);
      if |h| > 0 then [h] + rest else rest
  }

  /** Exactly the non-blank stripped pieces are kept. */
  lemma {:induction false} NonBlankStrippedMembers(pieces: seq<string>, x: string)
    ensures x in NonBlankStripped(pieces) <==> exists j :: 0 <= j < |pieces| && x == Strip(pieces[j]) && |x| > 0
    decreases |pieces|
  {
    if |pieces| > 0 {
      var h, tail := Strip(pieces[0]), pieces[1..];
      var rest := NonBlankStripped(tail);
      assert NonBlankStripped(pieces) == (if |h| > 0 then [h] else []) + rest;
      NonBlankStrippedMembers(tail, x);
      if x in rest {
        var j :| 0 <= j < |tail| && x == Strip(tail[j]) && |x| > 0;
        assert tail[j] == pieces[j + 1];
      }
      if exists j :: 0 <= j < |pieces| && x == Strip(pieces[j]) && |x| > 0 {
        var j :| 0 <= j < |pieces| && x == Strip(pieces[j]) && |x| > 0;
        if j > 0 {
          assert pieces[j] == tail[j - 1];
        }
      }
    }
  }

  /** The kept pieces keep their order: the pieces of a concatenation are
      the pieces of its front followed by those of its back. */
  lemma {:induction false} NonBlankStrippedAppend(front: seq<string>, back: seq<string>)
    ensures NonBlankStripped(front + back) == NonBlankStripped(front) + NonBlankStripped(back)
    decreases |front|
  {
    if |front| == 0 {
      assert front + back == back;
    } else {
      assert (front + back)[0] == front[0];
      assert (front + back)[1..] == front[1..] + back;
      NonBlankStrippedAppend(front[1..], back);
    }
  }

  /** A character no piece holds is in none of the stripped pieces. */
  lemma {:induction false} NonBlankStrippedAvoids(pieces: seq<string>, c: char)
    requires forall j :: 0 <= j < |pieces| ==> c !in pieces[j]
    ensures forall i :: 0 <= i < |NonBlankStripped(pieces)| ==> c !in NonBlankStripped(pieces)[i]
  {
    if |pieces| > 0 {
      assert forall j :: 0 <= j < |pieces[1..]| ==> pieces[1..][j] == pieces[j + 1];
      NonBlankStrippedAvoids(pieces[1..], c);
      var h, rest := Strip(pieces[0]), NonBlankStripped(pieces[1..]);
      assert c !in h by {
        StripInfix(pieces[0]);
        InfixAvoidsChar(h, pieces[0], c);
      }
      if |h| > 0 {
        forall i | 0 <= i < |[h] + rest| ensures c !in ([h] + rest)[i] {
          if i > 0 {
            assert ([h] + rest)[i] == rest[i - 1];
          }
        }
      }
    }
  }

  /** A substring no piece holds is in none of the stripped pieces. */
  lemma {:induction false} NonBlankStrippedAvoidsSub(pieces: seq<string>, sub: string)
    requires forall j :: 0 <= j < |pieces| ==> !Contains(pieces[j], sub)
    ensures forall i :: 0 <= i < |NonBlankStripped(pieces)| ==> !Contains(NonBlankStripped(pieces)[i], sub)
  {
    if |pieces| > 0 {
      assert forall j :: 0 <= j < |pieces[1..]| ==> pieces[1..][j] == pieces[j + 1];
      NonBlankStrippedAvoidsSub(pieces[1..], sub);
      var h, rest := Strip(pieces[0]), NonBlankStripped(pieces[1..]);
      assert !Contains(h, sub) by {
        StripInfix(pieces[0]);
        InfixAvoids(h, pieces[0], sub);
      }
      if |h| > 0 {
        forall i | 0 <= i < |[h] + rest| ensures !Contains(([h] + rest)[i], sub) {
          if i > 0 {
            assert ([h] + rest)[i] == rest[i - 1];
          }
        }
      }
    }
  }

  /** The labels of one alternative of a link: split on "»", strip, drop
      the blank pieces. */
  function ParsePath(s: string): (parts: seq<string>)
    ensures forall i :: 0 <= i < |parts| ==> Label(parts[i])
  {
    var pieces := Split(s, [Arrow]);
    SplitPiecesAvoid(s, [Arrow]);
    forall j | 0 <= j < |pieces| ensures Arrow !in pieces[j] {
      CharOccurrence(pieces[j], Arrow);
    }
    NonBlankStrippedAvoids(pieces, Arrow);
    NonBlankStripped(pieces)
  }

  /** The label a piece without "»" contributes: its stripped text, or
      nothing when it is blank. */
  function PieceLabels(a: string): seq<string>
  {
    if |Strip(a)| > 0 then [Strip(a)] else []
  }

  /** An alternative without "»" is one label, or none when blank. */
  lemma {:induction false} ParsePathNoArrow(a: string)
    requires Arrow !in a
    ensures ParsePath(a) == PieceLabels(a)
  {
    CharOccurrence(a, Arrow);
    SplitNoSeparator(a, [Arrow]);
    assert [a][1..] == [];
  }

  /** The labels before the first "»" come first, in order. */
  lemma {:induction false} ParsePathAtArrow(a: string, b: string)
    requires Arrow !in a
    ensures ParsePath(a + [Arrow] + b) == PieceLabels(a) + ParsePath(b)
  {
    var s := a + [Arrow] + b;
    var tail := Split(b, [Arrow]);
    SplitAtFirst(a, Arrow, b);
    assert ParsePath(s) == NonBlankStripped([a] + tail);
    NonBlankStrippedAppend([a], tail);
    assert NonBlankStripped([a]) == PieceLabels(a) by {
      assert [a][1..] == [];
    }
  }

  /** Parsing does not create a substring the input lacks. */
  lemma ParsePathAvoids(s: string, sub: string)
    requires !Contains(s, sub)
    ensures forall i :: 0 <= i < |ParsePath(s)| ==> !Contains(ParsePath(s)[i], sub)
  {
    var pieces := Split(s, [Arrow]);
    SplitInfix(s, [Arrow]);
    forall j | 0 <= j < |pieces| ensures !Contains(pieces[j], sub) {
      InfixAvoids(pieces[j], s, sub);
    }
    NonBlankStrippedAvoidsSub(pieces, sub);
  }

  function ParseAll(alternatives: seq<string>): (r: seq<seq<string>>)
    ensures |r| == |alternatives|
    ensures forall i :: 0 <= i < |r| ==> r[i] == ParsePath(alternatives[i])
  {
    if |alternatives| == 0 then [] else [ParsePath(alternatives[0])] + ParseAll(alternatives[1..])
  }

  /** The label paths one syllabus link contributes: one per non-blank
      alternative between "||" separators. */
  function LinkPaths(link: string): seq<seq<string>>
  {
    ParseAll(NonBlankStripped(Split(link, LinkSeparator)))
  }

  /** The label paths of all links, link by link, in input order. */
  function AllPaths(links: seq<string>): seq<seq<string>>
  {
    if |links| == 0 then [] else LinkPaths(links[0]) + AllPaths(links[1..])
  }

  /** A path is collected exactly when some link contributes it. */
  lemma InAllPaths(links: seq<string>, p: seq<string>)
    ensures p in AllPaths(links) <==> exists i :: 0 <= i < |links| && p in LinkPaths(links[i])
  {
    var per := PathsPerLink(links);
    AllPathsFlatten(links);
    InFlatten(per, p);
    if exists i :: 0 <= i < |per| && p in per[i] {
      var i :| 0 <= i < |per| && p in per[i];
      assert p in LinkPaths(links[i]);
    }
    if exists i :: 0 <= i < |links| && p in LinkPaths(links[i]) {
      var i :| 0 <= i < |links| && p in LinkPaths(links[i]);
      assert p in per[i];
    }
  }

  function PathsPerLink(links: seq<string>): (r: seq<seq<seq<string>>>)
    ensures |r| == |links|
    ensures forall i :: 0 <= i < |links| ==> r[i] == LinkPaths(links[i])
  {
    if |links| == 0 then [] else [LinkPaths(links[0])] + PathsPerLink(links[1..])
  }

  function Flatten(xss: seq<seq<seq<string>>>): seq<seq<string>>
  {
    if |xss| == 0 then [] else xss[0] + Flatten(xss[1..])
  }

  lemma {:induction false} AllPathsFlatten(links: seq<string>)
    ensures AllPaths(links) == Flatten(PathsPerLink(links))
  {
    if |links| > 0 {
      AllPathsFlatten(links[1..]);
      assert PathsPerLink(links)[1..] == PathsPerLink(links[1..]);
    }
  }

  lemma {:induction false} InFlatten(xss: seq<seq<seq<string>>>, p: seq<string>)
    ensures p in Flatten(xss) <==> exists i :: 0 <= i < |xss| && p in xss[i]
  {
    if |xss| > 0 {
      InFlatten(xss[1..], p);
      if p in Flatten(xss[1..]) {
        var i :| 0 <= i < |xss[1..]| && p in xss[1..][i];
        assert xss[1..][i] == xss[i + 1];
      }
      if exists i :: 1 <= i < |xss| && p in xss[i] {
        var i :| 1 <= i < |xss| && p in xss[i];
        assert xss[1..][i - 1] == xss[i];
      }
    }
  }

  /** `build_syllabus_hierarchy(links)`: every key of the result is a
      non-empty stripped label free of both separators, and no dictionary
      holds a key twice. */
  function BuildSyllabusHierarchy(links: seq<string>): (t: Trie)
    ensures WellFormed(t)
  {
    AllPathsValid(links);
    InsertAllWellFormed(EmptyTrie, AllPaths(links));
    InsertAll(EmptyTrie, AllPaths(links))
  }

  // ---------------------------------------------------------------------
  // What the build step produces
  // ---------------------------------------------------------------------

  lemma EmptyTrieHasOnlyRoot(q: seq<string>)
    ensures HasPath(EmptyTrie, q) <==> |q| == 0
  {
  }

  /** Looking a label up after an insertion: the first label of the path
      now leads to the extended child, every other label to what it led to
      before. */
  lemma {:induction false} ChildOfInsertIn(es: seq<Entry>, p: seq<string>, k: string)
    requires |p| > 0
    ensures ChildOf(InsertIn(es, p), k)
         == if k == p[0] then Some(Insert(ChildOf(es, k).GetOr(EmptyTrie), p[1..])) else ChildOf(es, k)
  {
    if |es| > 0 && es[0].key != p[0] {
      ChildOfInsertIn(es[1..], p, k);
      assert (InsertIn(es, p))[1..] == InsertIn(es[1..], p);
    }
  }

  /** After inserting `p`, the paths of the tree are the old ones and the
      prefixes of `p`, and nothing else. */
  lemma {:induction false} InsertHasPath(t: Trie, p: seq<string>, q: seq<string>)
    decreases |p|
    ensures HasPath(Insert(t, p), q) <==> HasPath(t, q) || q <= p
  {
    if |p| > 0 && |q| > 0 {
      ChildOfInsertIn(t.entries, p, q[0]);
      if q[0] == p[0] {
        var c := ChildOf(t.entries, q[0]).GetOr(EmptyTrie);
        InsertHasPath(c, p[1..], q[1..]);
        EmptyTrieHasOnlyRoot(q[1..]);
        assert q <= p <==> q[1..] <= p[1..];
      }
    }
  }

  lemma {:induction false} InsertAllHasPath(t: Trie, ps: seq<seq<string>>, q: seq<string>)
    decreases |ps|
    ensures HasPath(InsertAll(t, ps), q) <==> HasPath(t, q) || exists i :: 0 <= i < |ps| && q <= ps[i]
  {
    if |ps| > 0 {
      InsertHasPath(t, ps[0], q);
      InsertAllHasPath(Insert(t, ps[0]), ps[1..], q);
      assert forall i :: 1 <= i < |ps| ==> ps[i] == ps[1..][i - 1];
      if exists i :: 0 <= i < |ps| && q <= ps[i] {
        var i :| 0 <= i < |ps| && q <= ps[i];
        if i > 0 {
          assert q <= ps[1..][i - 1];
        }
      }
    }
  }

  /** The hierarchy holds exactly the prefixes of the collected label
      paths: a label path is offered for browsing if and only if some
      collected path starts with it (`InAllPaths` says which paths are
      collected). */
  lemma BuildPaths(links: seq<string>, q: seq<string>)
    ensures HasPath(BuildSyllabusHierarchy(links), q)
        <==> |q| == 0 || exists j :: 0 <= j < |AllPaths(links)| && q <= AllPaths(links)[j]
  {
    InsertAllHasPath(EmptyTrie, AllPaths(links), q);
    EmptyTrieHasOnlyRoot(q);
  }

  /** Inserting a path the tree already has changes nothing. */
  lemma {:induction false} InsertExisting(t: Trie, p: seq<string>)
    requires HasPath(t, p)
    decreases |p|
    ensures Insert(t, p) == t
  {
    if |p| > 0 {
      InsertInExisting(t.entries, p);
    }
  }

  lemma {:induction false} InsertInExisting(es: seq<Entry>, p: seq<string>)
    requires |p| > 0 && ChildOf(es, p[0]).Some? && HasPath(ChildOf(es, p[0]).value, p[1..])
    decreases |p|, |es|
    ensures InsertIn(es, p) == es
  {
    if es[0].key == p[0] {
      InsertExisting(es[0].child, p[1..]);
      assert [Entry(p[0], es[0].child)] + es[1..] == es;
    } else {
      InsertInExisting(es[1..], p);
      assert [es[0]] + es[1..] == es;
    }
  }

  lemma {:induction false} InsertAllExisting(t: Trie, ps: seq<seq<string>>)
    requires forall i :: 0 <= i < |ps| ==> HasPath(t, ps[i])
    decreases |ps|
    ensures InsertAll(t, ps) == t
  {
    if |ps| > 0 {
      InsertExisting(t, ps[0]);
      InsertAllExisting(t, ps[1..]);
    }
  }

  lemma {:induction false} InsertAllAppend(t: Trie, ps: seq<seq<string>>, qs: seq<seq<string>>)
    decreases |ps|
    ensures InsertAll(t, ps + qs) == InsertAll(InsertAll(t, ps), qs)
  {
    if |ps| > 0 {
      assert (ps + qs)[1..] == ps[1..] + qs;
      InsertAllAppend(Insert(t, ps[0]), ps[1..], qs);
    } else {
      assert ps + qs == qs;
    }
  }

  lemma {:induction false} AllPathsAppend(links: seq<string>, link: string)
    decreases |links|
    ensures AllPaths(links + [link]) == AllPaths(links) + LinkPaths(link)
  {
    if |links| == 0 {
      assert links + [link] == [link];
    } else {
      assert (links + [link])[1..] == links[1..] + [link];
      AllPathsAppend(links[1..], link);
    }
  }

  /** Every non-blank alternative of every link is a path from the root of
      the built hierarchy. */
  lemma AlternativeIsRootPath(links: seq<string>, i: nat, j: nat)
    requires i < |links|
    requires j < |Split(links[i], LinkSeparator)|
    requires |Strip(Split(links[i], LinkSeparator)[j])| > 0
    ensures HasPath(BuildSyllabusHierarchy(links), ParsePath(Strip(Split(links[i], LinkSeparator)[j])))
  {
    var alternatives := NonBlankStripped(Split(links[i], LinkSeparator));
    var a := Strip(Split(links[i], LinkSeparator)[j]);
    NonBlankStrippedMembers(Split(links[i], LinkSeparator), a);
    var k :| 0 <= k < |alternatives| && alternatives[k] == a;
    var p := ParsePath(a);
    assert LinkPaths(links[i])[k] == p;
    InAllPaths(links, p);
    var m :| 0 <= m < |AllPaths(links)| && AllPaths(links)[m] == p;
    BuildPaths(links, p);
    assert p <= AllPaths(links)[m];
  }

  /** A link that was already built in changes nothing when it comes
      again: the hierarchy depends on the set of label paths, not on how
      often a link occurs. */
  lemma RepeatedLinkChangesNothing(links: seq<string>, link: string)
    requires link in links
    ensures BuildSyllabusHierarchy(links + [link]) == BuildSyllabusHierarchy(links)
  {
    var t := BuildSyllabusHierarchy(links);
    AllPathsAppend(links, link);
    InsertAllAppend(EmptyTrie, AllPaths(links), LinkPaths(link));
    var i :| 0 <= i < |links| && links[i] == link;
    forall j | 0 <= j < |LinkPaths(link)| ensures HasPath(t, LinkPaths(link)[j]) {
      var p := LinkPaths(link)[j];
      assert p in LinkPaths(links[i]);
      InAllPaths(links, p);
      var k :| 0 <= k < |AllPaths(links)| && AllPaths(links)[k] == p;
      BuildPaths(links, p);
      assert p <= AllPaths(links)[k];
    }
    InsertAllExisting(t, LinkPaths(link));
  }

  // ---------------------------------------------------------------------
  // Well-formedness: distinct, stripped, non-empty labels
  // ---------------------------------------------------------------------

  predicate DistinctKeys(ks: seq<string>) {
    forall i, j :: 0 <= i < j < |ks| ==> ks[i] != ks[j]
  }

  /** Every dictionary has distinct keys, and every key is a label the
      parser can produce. */
  predicate WellFormed(t: Trie)
    decreases t
  {
    DistinctKeys(KeysOf(t.entries))
    && forall i :: 0 <= i < |t.entries| ==> ValidKey(t.entries[i].key) && WellFormed(t.entries[i].child)
  }

  lemma {:induction false} InsertWellFormed(t: Trie, p: seq<string>)
    requires WellFormed(t)
    requires forall i :: 0 <= i < |p| ==> ValidKey(p[i])
    decreases |p|, |t.entries| + 1
    ensures WellFormed(Insert(t, p))
  {
    if |p| > 0 {
      InsertInWellFormed(t.entries, p);
    }
  }

  lemma {:induction false} InsertInWellFormed(es: seq<Entry>, p: seq<string>)
    requires WellFormed(Node(es))
    requires |p| > 0 && forall i :: 0 <= i < |p| ==> ValidKey(p[i])
    decreases |p|, |es|
    ensures WellFormed(Node(InsertIn(es, p)))
  {
    if |es| == 0 {
      InsertWellFormed(EmptyTrie, p[1..]);
      ConsWellFormed(Entry(p[0], Insert(EmptyTrie, p[1..])), []);
    } else {
      UnconsWellFormed(es);
      if es[0].key == p[0] {
        InsertWellFormed(es[0].child, p[1..]);
        ConsWellFormed(Entry(p[0], Insert(es[0].child, p[1..])), es[1..]);
      } else {
        InsertInWellFormed(es[1..], p);
        ConsWellFormed(es[0], InsertIn(es[1..], p));
      }
    }
  }

  /** The first entry of a well-formed dictionary and the rest of it. */
  lemma UnconsWellFormed(es: seq<Entry>)
    requires WellFormed(Node(es)) && |es| > 0
    ensures ValidKey(es[0].key) && WellFormed(es[0].child)
    ensures WellFormed(Node(es[1..])) && es[0].key !in KeysOf(es[1..])
  {
    assert forall i :: 0 <= i < |es[1..]| ==> es[1..][i] == es[i + 1];
    assert KeysOf(es[1..]) == KeysOf(es)[1..];
  }

  /** Putting a fresh, valid entry in front of a well-formed dictionary. */
  lemma ConsWellFormed(e: Entry, rest: seq<Entry>)
    requires ValidKey(e.key) && WellFormed(e.child)
    requires WellFormed(Node(rest)) && e.key !in KeysOf(rest)
    ensures WellFormed(Node([e] + rest))
  {
    var r := [e] + rest;
    assert KeysOf(r) == [e.key] + KeysOf(rest);
    forall i | 0 <= i < |r| ensures ValidKey(r[i].key) && WellFormed(r[i].child) {
      if i > 0 {
        assert r[i] == rest[i - 1];
      }
    }
  }

  lemma {:induction false} InsertAllWellFormed(t: Trie, ps: seq<seq<string>>)
    requires WellFormed(t)
    requires ValidPaths(ps)
    decreases |ps|
    ensures WellFormed(InsertAll(t, ps))
  {
    if |ps| > 0 {
      InsertWellFormed(t, ps[0]);
      InsertAllWellFormed(Insert(t, ps[0]), ps[1..]);
    }
  }

  predicate ValidPaths(ps: seq<seq<string>>) {
    forall i, j :: 0 <= i < |ps| && 0 <= j < |ps[i]| ==> ValidKey(ps[i][j])
  }

  lemma LinkPathsValid(link: string)
    ensures ValidPaths(LinkPaths(link))
  {
    var ps := LinkPaths(link);
    var alternatives := NonBlankStripped(Split(link, LinkSeparator));
    SplitPiecesAvoid(link, LinkSeparator);
    NonBlankStrippedAvoidsSub(Split(link, LinkSeparator), LinkSeparator);
    forall i, j | 0 <= i < |ps| && 0 <= j < |ps[i]| ensures ValidKey(ps[i][j]) {
      assert ps[i] == ParsePath(alternatives[i]);
      ParsePathAvoids(alternatives[i], LinkSeparator);
    }
  }

  lemma {:induction false} AllPathsValid(links: seq<string>)
    decreases |links|
    ensures ValidPaths(AllPaths(links))
  {
    if |links| > 0 {
      LinkPathsValid(links[0]);
      AllPathsValid(links[1..]);
      ValidPathsConcat(LinkPaths(links[0]), AllPaths(links[1..]));
    }
  }

  lemma ValidPathsConcat(front: seq<seq<string>>, rest: seq<seq<string>>)
    requires ValidPaths(front) && ValidPaths(rest)
    ensures ValidPaths(front + rest)
  {
    forall i, j | 0 <= i < |front + rest| && 0 <= j < |(front + rest)[i]| ensures ValidKey((front + rest)[i][j]) {
      if i >= |front| {
        assert (front + rest)[i] == rest[i - |front|];
      }
    }
  }

  // ---------------------------------------------------------------------
  // Rendering
  // ---------------------------------------------------------------------

  /** The drop-downs from level `depth` on. `prior` holds the session's
      remembered choice per level (`selected_level_<depth>`); the choice
      shown is the remembered one when it is still an option, and the first
      option otherwise. Rendering stops at an empty dictionary or after
      level ten. */
  function RenderParts(t: Trie, prior: map<nat, string>, depth: nat): (parts: seq<string>)
    requires depth <= MaxDepth
    decreases MaxDepth - depth
    ensures |parts| <= MaxDepth - depth
    ensures HasPath(t, parts)
    ensures |parts| < MaxDepth - depth ==> |NodeAt(t, parts).entries| == 0
    ensures FollowsDefaults(t, prior, depth, parts)
  {
    if depth == MaxDepth || |t.entries| == 0 then []
    else
      var options := KeysOf(t.entries);
      var selected := if depth in prior && prior[depth] in options then prior[depth] else options[0];
      var child := ChildOf(t.entries, selected).value;
      var rest := RenderParts(child, prior, depth + 1);
      assert ([selected] + rest)[1..] == rest;
      [selected] + rest
  }

  /** The choice rule of one drop-down, level by level along `parts`:
      the remembered value when it is among the options, the first option
      otherwise. */
  predicate FollowsDefaults(t: Trie, prior: map<nat, string>, depth: nat, parts: seq<string>)
    decreases |parts|
  {
    |parts| == 0
    || (&& |t.entries| > 0
        && var options := KeysOf(t.entries);
           && parts[0] == (if depth in prior && prior[depth] in options then prior[depth] else options[0])
           && ChildOf(t.entries, parts[0]).Some?
           && FollowsDefaults(ChildOf(t.entries, parts[0]).value, prior, depth + 1, parts[1..]))
  }

  /** The choice rule and the stopping rule determine the rendered path:
      any path that follows the rule at every level and stops only at an
      empty dictionary or at level ten is the one rendered. */
  lemma {:induction false} RenderCharacterised(t: Trie, prior: map<nat, string>, depth: nat, p: seq<string>)
    requires depth <= MaxDepth && |p| <= MaxDepth - depth
    requires HasPath(t, p) && FollowsDefaults(t, prior, depth, p)
    requires |p| == MaxDepth - depth || |NodeAt(t, p).entries| == 0
    decreases |p|
    ensures RenderParts(t, prior, depth) == p
  {
    if |p| > 0 {
      var child := ChildOf(t.entries, p[0]).value;
      assert NodeAt(child, p[1..]) == NodeAt(t, p);
      RenderCharacterised(child, prior, depth + 1, p[1..]);
      assert [p[0]] + p[1..] == p;
    }
  }

  /** `render_syllabus_hierarchy(hierarchy)`: on a well-formed hierarchy,
      splitting the returned string on "»" and stripping the pieces gives
      back exactly the selected labels. */
  function RenderSyllabusHierarchy(t: Trie, prior: map<nat, string>): (r: string)
    ensures WellFormed(t) ==> ParsePath(r) == RenderParts(t, prior, 0)
  {
    var parts := RenderParts(t, prior, 0);
    if WellFormed(t) then JoinedPathParses(t, parts); Join(parts, DisplaySeparator)
    else Join(parts, DisplaySeparator)
  }

  /** The session remembers the labels of `p` for the levels from `depth`
      on. */
  predicate Remembers(prior: map<nat, string>, depth: nat, p: seq<string>)
    decreases |p|
  {
    |p| == 0 || (depth in prior && prior[depth] == p[0] && Remembers(prior, depth + 1, p[1..]))
  }

  /** A remembered selection is shown again: when the session holds a full
      path of the tree (one that ends in an empty dictionary or is ten
      levels deep), rendering reproduces exactly that path. */
  lemma {:induction false} RenderKeepsSessionPath(t: Trie, prior: map<nat, string>, depth: nat, p: seq<string>)
    requires depth <= MaxDepth && |p| <= MaxDepth - depth
    requires HasPath(t, p)
    requires |p| == MaxDepth - depth || |NodeAt(t, p).entries| == 0
    requires Remembers(prior, depth, p)
    ensures RenderParts(t, prior, depth) == p
  {
    RememberedPathFollowsDefaults(t, prior, depth, p);
    RenderCharacterised(t, prior, depth, p);
  }

  /** A remembered path of the tree is the one the choice rule picks, since
      every remembered label is among the options at its level. */
  lemma {:induction false} RememberedPathFollowsDefaults(t: Trie, prior: map<nat, string>, depth: nat, p: seq<string>)
    requires HasPath(t, p)
    requires Remembers(prior, depth, p)
    ensures FollowsDefaults(t, prior, depth, p)
    decreases |p|
  {
    if |p| > 0 {
      var child := ChildOf(t.entries, p[0]).value;
      assert p[0] in KeysOf(t.entries);
      RememberedPathFollowsDefaults(child, prior, depth + 1, p[1..]);
    }
  }

  // ---------------------------------------------------------------------
  // The rendered string parses back into the chosen labels
  // ---------------------------------------------------------------------

  lemma NonBlankStrippedCons(x: string, rest: seq<string>)
    ensures NonBlankStripped([x] + rest)
         == (if |Strip(x)| > 0 then [Strip(x)] else []) + NonBlankStripped(rest)
  {
    assert ([x] + rest)[1..] == rest;
  }

  /** A stretch of whitespace followed by at most one label has no "»". */
  lemma SingleHasNoArrow(w: string, p: string)
    requires AllSpace(w) && (p == "" || Label(p))
    ensures Split(w + p, [Arrow]) == [w + p]
  {
    assert Arrow !in w;
    assert Arrow !in w + p;
    CharOccurrence(w + p, Arrow);
    SplitNoSeparator(w + p, [Arrow]);
  }

  /** A stretch of whitespace followed by one label parses into that
      label. */
  lemma ParseSingle(w: string, p: string)
    requires AllSpace(w) && Label(p)
    ensures NonBlankStripped(Split(w + p, [Arrow])) == [p]
  {
    SingleHasNoArrow(w, p);
    NonBlankStrippedCons(w + p, []);
    StripPadded(w, p, "");
    assert w + p + "" == w + p;
  }

  /** A stretch of whitespace alone parses into no label. */
  lemma ParseBlank(w: string)
    requires AllSpace(w)
    ensures NonBlankStripped(Split(w, [Arrow])) == []
  {
    assert Arrow !in w by {
      forall i | 0 <= i < |w| ensures w[i] != Arrow {
        assert IsSpace(w[i]);
      }
    }
    CharOccurrence(w, Arrow);
    SplitNoSeparator(w, [Arrow]);
    NonBlankStrippedCons(w, []);
    assert [w] + [] == [w];
  }

  lemma {:induction false} ParseCons(w: string, head: string, tail: seq<string>)
    requires AllSpace(w) && Label(head) && |tail| > 0
    ensures NonBlankStripped(Split(w + Join([head] + tail, DisplaySeparator), [Arrow]))
         == [head] + NonBlankStripped(Split(" " + Join(tail, DisplaySeparator), [Arrow]))
  {
    var a := w + head + " ";
    var b := " " + Join(tail, DisplaySeparator);
    JoinCons(head, tail, DisplaySeparator);
    assert DisplaySeparator == " " + [Arrow] + " ";
    assert w + Join([head] + tail, DisplaySeparator) == a + [Arrow] + b;
    assert Arrow !in w;
    assert Arrow !in a;
    SplitAtFirst(a, Arrow, b);
    StripPadded(w, head, " ");
    NonBlankStrippedCons(a, Split(b, [Arrow]));
  }

  /** Whitespace followed by labels joined with " » " parses back into the
      labels. */
  lemma {:induction false} ParsePaddedJoin(w: string, parts: seq<string>)
    requires AllSpace(w)
    requires forall i :: 0 <= i < |parts| ==> Label(parts[i])
    decreases |parts|
    ensures NonBlankStripped(Split(w + Join(parts, DisplaySeparator), [Arrow])) == parts
  {
    if |parts| == 0 {
      ParseEmptyJoin(w);
    } else if |parts| == 1 {
      ParseOneJoin(w, parts[0]);
      assert [parts[0]] == parts;
    } else {
      var tail := parts[1..];
      assert forall i :: 0 <= i < |tail| ==> tail[i] == parts[i + 1];
      assert AllSpace(" ") by {
        assert IsSpace(" "[0]);
      }
      ParseCons(w, parts[0], tail);
      ParsePaddedJoin(" ", tail);
      assert [parts[0]] + tail == parts;
    }
  }

  lemma ParseEmptyJoin(w: string)
    requires AllSpace(w)
    ensures NonBlankStripped(Split(w + Join([], DisplaySeparator), [Arrow])) == []
  {
    ParseBlank(w);
    assert w + Join([], DisplaySeparator) == w;
  }

  lemma ParseOneJoin(w: string, x: string)
    requires AllSpace(w) && Label(x)
    ensures NonBlankStripped(Split(w + Join([x], DisplaySeparator), [Arrow])) == [x]
  {
    ParseSingle(w, x);
    assert Join([x], DisplaySeparator) == x;
  }

  /** The labels along a path of a well-formed hierarchy, joined with " » ",
      parse back into that path. */
  lemma JoinedPathParses(t: Trie, p: seq<string>)
    requires WellFormed(t) && HasPath(t, p)
    ensures ParsePath(Join(p, DisplaySeparator)) == p
  {
    PathKeysValid(t, p);
    ParsePaddedJoin("", p);
    assert "" + Join(p, DisplaySeparator) == Join(p, DisplaySeparator);
  }

  /** Every label along a path of a well-formed tree is a valid key. */
  lemma {:induction false} PathKeysValid(t: Trie, p: seq<string>)
    requires WellFormed(t) && HasPath(t, p)
    decreases |p|
    ensures forall i :: 0 <= i < |p| ==> ValidKey(p[i])
  {
    if |p| > 0 {
      ChildInEntries(t.entries, p[0]);
      var child := ChildOf(t.entries, p[0]).value;
      var k :| 0 <= k < |t.entries| && t.entries[k] == Entry(p[0], child);
      assert ValidKey(p[0]) && WellFormed(child) by {
        assert ValidKey(t.entries[k].key) && WellFormed(t.entries[k].child);
      }
      PathKeysValid(child, p[1..]);
      forall i | 1 <= i < |p| ensures ValidKey(p[i]) {
        assert p[i] == p[1..][i - 1];
      }
    }
  }

  lemma {:induction false} ChildInEntries(es: seq<Entry>, k: string)
    requires ChildOf(es, k).Some?
    ensures exists i :: 0 <= i < |es| && es[i] == Entry(k, ChildOf(es, k).value)
  {
    if es[0].key != k {
      ChildInEntries(es[1..], k);
      var i :| 0 <= i < |es[1..]| && es[1..][i] == Entry(k, ChildOf(es, k).value);
      assert es[i + 1] == es[1..][i];
    } else {
      assert es[0] == Entry(k, ChildOf(es, k).value);
    }
  }
}

=== FILE: progress.dfy ===
/** The progress tracker of progress.py: the upserts that record an answer
    or a "lacking context" mark, the two deletions, the validity filter and
    the progress counts. Every call is one atomic transition of the
    `ProgressStore`; `now` stands for `CURRENT_TIMESTAMP`. */
module Progress {
  import opened Text
  import opened Schema

  // ---------------------------------------------------------------------
  // Writes
  // ---------------------------------------------------------------------

  /** The statement every write of progress.py runs against one table:
      `INSERT ... VALUES (q, u, 1, 1, now) ON CONFLICT(question_id) DO UPDATE
      SET user_id = u, lacking_context = 1, reviewed = 1, updated_at = now`.
      The counters are never named, so they keep their stored value, or
      their default 0 on a fresh insert. */
  function Upsert(t: Table, q: int, u: int, now: int): (r: Table)
    ensures r.Keys == t.Keys + {q}
    ensures r[q].reviewed && r[q].lackingContext
    ensures r[q].userId == u && r[q].updatedAt == now
    ensures q in t ==> SameCounters(r[q], t[q])
    ensures q !in t ==> ZeroCounters(r[q])
    ensures forall p :: p in t && p != q ==> r[p] == t[p]
  {
    if q in t then
      t[q := t[q].(userId := u, lackingContext := true, reviewed := true, updatedAt := now)]
    else
      t[q := DefaultRow(u, now).(lackingContext := true, reviewed := true)]
  }

  predicate SameCounters(a: Row, b: Row) {
    && a.correctCount == b.correctCount
    && a.partiallyCorrectCount == b.partiallyCorrectCount
    && a.incorrectCount == b.incorrectCount
  }

  predicate ZeroCounters(a: Row) {
    a.correctCount == 0 && a.partiallyCorrectCount == 0 && a.incorrectCount == 0
  }

  /** `mark_as_lacking_context(subject, question_id, user_id)`. */
  function MarkAsLackingContext(store: ProgressStore, subject: string, q: int, u: int, now: int)
    : (r: ProgressStore)
    ensures var s := SubjectOf(subject);
      var before, after := store.TableOf(s), r.TableOf(s);
      && after.Keys == before.Keys + {q}
      && after[q].reviewed && after[q].lackingContext && after[q].userId == u
      && after[q].updatedAt == now
      && (q in before ==> SameCounters(after[q], before[q]))
      && (q !in before ==> ZeroCounters(after[q]))
      && (forall p :: p in before && p != q ==> after[p] == before[p])
    ensures forall o :: o != SubjectOf(subject) ==> r.TableOf(o) == store.TableOf(o)
  {
    var s := SubjectOf(subject);
    store.WithTable(s, Upsert(store.TableOf(s), q, u, now))
  }

  /** The three statuses the answer buttons send. */
  predicate IsOutcome(status: string) {
    status == "correct" || status == "partially_correct" || status == "incorrect"
  }

  /** `update_progress(subject, question_id, status, user_id)`: each known
      status runs the very same upsert (the status chooses no counter);
      any other status writes nothing. */
  function UpdateProgress(store: ProgressStore, subject: string, q: int, status: string, u: int, now: int)
    : (r: ProgressStore)
    ensures IsOutcome(status) ==> r == MarkAsLackingContext(store, subject, q, u, now)
    ensures !IsOutcome(status) ==> r == store
  {
    var s := SubjectOf(subject);
    var t := store.TableOf(s);
    if status == "correct" then
      store.WithTable(s, Upsert(t, q, u, now))
    else if status == "partially_correct" then
      store.WithTable(s, Upsert(t, q, u, now))
    else if status == "incorrect" then
      store.WithTable(s, Upsert(t, q, u, now))
    else
      store
  }

  /** `DELETE FROM user_progress_<subject> WHERE user_id = u`. */
  function DeleteUser(t: Table, u: int): (r: Table)
    ensures forall p :: p in r ==> r[p].userId != u
    ensures forall p :: p in t && t[p].userId != u ==> p in r && r[p] == t[p]
    ensures forall p :: p in r ==> p in t && t[p].userId != u && r[p] == t[p]
  {
    map p | p in t && t[p].userId != u :: t[p]
  }

  /** `reset_progress(subject, user_id)`. */
  function ResetProgress(store: ProgressStore, subject: string, u: int): (r: ProgressStore)
    ensures var s := SubjectOf(subject);
      var before, after := store.TableOf(s), r.TableOf(s);
      && (forall p :: p in after ==> after[p].userId != u)
      && (forall p :: p in before && before[p].userId != u ==> p in after && after[p] == before[p])
      && (forall p :: p in after ==> p in before && before[p].userId != u && after[p] == before[p])
    ensures forall o :: o != SubjectOf(subject) ==> r.TableOf(o) == store.TableOf(o)
  {
    var s := SubjectOf(subject);
    store.WithTable(s, DeleteUser(store.TableOf(s), u))
  }

  /** `remove_question_from_progress(question_id, user_id)`: deletes the
      row with this `question_id` and `user_id` from the chemistry table,
      whatever subject the caller is showing. */
  function RemoveQuestionFromProgress(store: ProgressStore, q: int, u: int): (r: ProgressStore)
    ensures q in r.chemistry <==> q in store.chemistry && store.chemistry[q].userId != u
    ensures forall p :: p in store.chemistry && p != q ==> p in r.chemistry && r.chemistry[p] == store.chemistry[p]
    ensures r.chemistry.Keys <= store.chemistry.Keys
    ensures forall p :: p in r.chemistry ==> r.chemistry[p] == store.chemistry[p]
    ensures r.physics == store.physics
  {
    var t := store.chemistry;
    store.(chemistry := map p | p in t && !(p == q && t[p].userId == u) :: t[p])
  }

  // ---------------------------------------------------------------------
  // Properties of the writes
  // ---------------------------------------------------------------------

  /** An answer has exactly the effect of a "lacking context" mark, and no
      status ever changes a counter. */
  lemma AnswerIsLackingContextMark(store: ProgressStore, subject: string, q: int, status: string, u: int, now: int)
    requires IsOutcome(status)
    ensures var t := UpdateProgress(store, subject, q, status, u, now).TableOf(SubjectOf(subject));
      && t[q].lackingContext && t[q].reviewed
      && (q in store.TableOf(SubjectOf(subject)) ==> SameCounters(t[q], store.TableOf(SubjectOf(subject))[q]))
  {
  }

  /** Repeating an upsert only moves the timestamp: the second application
      equals a single one made at the later time. */
  lemma UpsertIdempotent(t: Table, q: int, u: int, now1: int, now2: int)
    ensures Upsert(Upsert(t, q, u, now1), q, u, now2) == Upsert(t, q, u, now2)
  {
    var a, b := Upsert(Upsert(t, q, u, now1), q, u, now2), Upsert(t, q, u, now2);
    assert a.Keys == b.Keys;
    assert forall p :: p in a ==> a[p] == b[p];
  }

  /** With the key being `question_id` alone, an upsert by one user takes
      over a row another user had: afterwards that user has no row for
      the question. */
  lemma UpsertTakesOverRow(t: Table, q: int, u: int, v: int, now: int)
    requires q in t && t[q].userId == v && u != v
    ensures var r := Upsert(t, q, u, now);
      q in r && r[q].userId == u && SameCounters(r[q], t[q])
  {
  }

  /** A second reset changes nothing. */
  lemma ResetIdempotent(store: ProgressStore, subject: string, u: int)
    ensures ResetProgress(ResetProgress(store, subject, u), subject, u)
      == ResetProgress(store, subject, u)
  {
    var s := SubjectOf(subject);
    var once := ResetProgress(store, subject, u);
    assert DeleteUser(once.TableOf(s), u) == once.TableOf(s);
  }

  /** Removal from history never touches the physics table, whichever
      subject the history page was showing. */
  lemma RemoveIgnoresPhysics(store: ProgressStore, q: int, u: int)
    requires q in store.physics && store.physics[q].userId == u
    ensures q in RemoveQuestionFromProgress(store, q, u).physics
  {
  }

  // ---------------------------------------------------------------------
  // Validity filter
  // ---------------------------------------------------------------------

  /** The paper whose questions always count toward the total. */
  const ExemptPaper := "1B"

  /** `should_exclude_question(reference_code, paper)`: a question counts
      when its paper is "1B" or when the part of its reference code after
      the last "." is a non-empty string of digits. */
  function ShouldExcludeQuestion(referenceCode: string, paper: string): (r: bool)
    ensures paper == ExemptPaper ==> !r
    ensures forall k ::
              0 <= k <= |referenceCode| && '.' !in referenceCode[k..]
              && (k == 0 || referenceCode[k - 1] == '.')
              ==> (r <==> paper != ExemptPaper && !IsDigits(referenceCode[k..]))
  {
    if paper == ExemptPaper then false
    else
      var lastPart := Last(Split(referenceCode, "."));
      LastPartIsSuffixAfterLastDot(referenceCode);
      !IsDigits(lastPart)
  }

  lemma LastPartIsSuffixAfterLastDot(s: string)
    ensures forall k ::
              0 <= k <= |s| && '.' !in s[k..] && (k == 0 || s[k - 1] == '.')
              ==> Last(Split(s, ".")) == s[k..]
  {
    LastPieceIsSuffix(s, '.');
    var p := Last(Split(s, "."));
    forall k | 0 <= k <= |s| && '.' !in s[k..] && (k == 0 || s[k - 1] == '.')
      ensures p == s[k..]
    {
      SuffixAfterLastUnique(s, '.', k, |s| - |p|);
    }
  }

  /** The worked examples of the validity rule: a numeric last part
      counts, a non-numeric one does not, unless the paper is "1B". */
  lemma ValidityExampleNumeric()
    ensures !ShouldExcludeQuestion("12.3.4", "1A")
  {
    var a := "12.3.4";
    assert '.' !in a[5..] && a[4] == '.' && IsDigits(a[5..]);
  }

  lemma ValidityExampleNonNumeric()
    ensures ShouldExcludeQuestion("12.3.x", "1A")
  {
    var b := "12.3.x";
    assert '.' !in b[5..] && b[4] == '.' && !IsDigit(b[5]);
  }

  lemma ValidityExampleEmptyLastPart()
    ensures ShouldExcludeQuestion("12.3.", "1A")
  {
    var c := "12.3.";
    assert '.' !in c[5..] && c[4] == '.' && c[5..] == "";
  }

  // ---------------------------------------------------------------------
  // Progress counts
  // ---------------------------------------------------------------------

  /** How many questions of a bank pass the validity filter. */
  function CountValid(qs: seq<Question>): (n: nat)
    ensures n <= |qs|
    ensures n == |qs| <==> forall i :: 0 <= i < |qs| ==> !ShouldExcludeQuestion(qs[i].referenceCode, qs[i].paper)
    ensures n == 0 <==> forall i :: 0 <= i < |qs| ==> ShouldExcludeQuestion(qs[i].referenceCode, qs[i].paper)
  {
    if |qs| == 0 then 0
    else
      var rest := CountValid(qs[1..]);
      assert forall i :: 1 <= i < |qs| ==> qs[i] == qs[1..][i - 1];
      (if ShouldExcludeQuestion(qs[0].referenceCode, qs[0].paper) then 0 else 1) + rest
  }

  /** The valid count is additive, so with the one-question case its
      contract fixes (valid: 1, excluded: 0) it is the number of valid
      questions of the bank. */
  lemma {:induction false} CountValidAppend(a: seq<Question>, b: seq<Question>)
    ensures CountValid(a + b) == CountValid(a) + CountValid(b)
    decreases |a|
  {
    if |a| == 0 {
      assert a + b == b;
    } else {
      assert (a + b)[0] == a[0];
      assert (a + b)[1..] == a[1..] + b;
      CountValidAppend(a[1..], b);
    }
  }

  /** The rows the progress numerator counts: reviewed, not lacking
      context, and belonging to the user. */
  function CompletedIds(t: Table, u: int): set<int>
  {
    set p | p in t && t[p].reviewed && !t[p].lackingContext && t[p].userId == u
  }

  /** The rows this user has reviewed, lacking-context marks included. */
  function ReviewedIds(t: Table, u: int): set<int>
  {
    set p | p in t && t[p].reviewed && t[p].userId == u
  }

  datatype ProgressCounts = ProgressCounts(reviewed: nat, total: nat)

  /** `get_progress(subject, user_id)`: the numerator counts the user's
      reviewed rows that do not lack context; the denominator counts the
      valid questions of the subject's bank. */
  function GetProgress(banks: QuestionBanks, store: ProgressStore, subject: string, u: int)
    : (r: ProgressCounts)
    ensures r.total <= |banks.BankOf(SubjectOf(subject))|
    ensures r.reviewed <= |ReviewedIds(store.TableOf(SubjectOf(subject)), u)|
    ensures r.reviewed == |CompletedIds(store.TableOf(SubjectOf(subject)), u)|
    ensures r.total == |banks.BankOf(SubjectOf(subject))|
      <==> forall q :: q in banks.BankOf(SubjectOf(subject)) ==> !ShouldExcludeQuestion(q.referenceCode, q.paper)
    ensures r.total == CountValid(banks.BankOf(SubjectOf(subject)))
  {
    var s := SubjectOf(subject);
    var t := store.TableOf(s);
    assert CompletedIds(t, u) <= ReviewedIds(t, u);
    SubsetCardinality(CompletedIds(t, u), ReviewedIds(t, u));
    ProgressCounts(|CompletedIds(t, u)|, CountValid(banks.BankOf(s)))
  }

  lemma SubsetCardinality(a: set<int>, b: set<int>)
    requires a <= b
    ensures |a| <= |b|
  {
    assert b == a + (b - a);
  }

  /** A "lacking context" mark takes the question out of the numerator
      while keeping it among the user's reviewed questions. */
  lemma MarkLeavesNumerator(store: ProgressStore, subject: string, q: int, u: int, now: int)
    ensures var t := MarkAsLackingContext(store, subject, q, u, now).TableOf(SubjectOf(subject));
      q !in CompletedIds(t, u) && q in ReviewedIds(t, u)
  {
  }
}

=== FILE: schema.dfy ===
/** The persistent state of the quiz, as backend/database.py lays it out:
    one question bank per subject (read-only here) and one progress table
    per subject in the game database. Connections and files are not part
    of the model; each store is a value. */
module Schema {
  import opened Wrappers

  /** The two subjects the application serves. */
  datatype Subject = Chemistry | Physics

  /** `get_db_connection(subject)`, and every `if subject == "Chemistry"`
      fork of the progress and selection code: the exact string
      "Chemistry" selects the chemistry store, any other string the
      physics one. */
  function SubjectOf(name: string): (s: Subject)
    ensures s == Chemistry <==> name == "Chemistry"
    ensures s == Physics <==> name != "Chemistry"
  {
    if name == "Chemistry" then Chemistry else Physics
  }

  /** One row of `user_progress_<subject>`. The three counters and the two
      flags carry schema defaults (0 / false); `updated_at` is the abstract
      clock value of the last write. */
  datatype Row = Row(
    correctCount: int,
    partiallyCorrectCount: int,
    incorrectCount: int,
    reviewed: bool,
    lackingContext: bool,
    userId: int,
    updatedAt: int)

  /** A progress table. `question_id INTEGER PRIMARY KEY` makes the table a
      function of the question id: at most one row per question, whoever
      the user. */
  type Table = map<int, Row>

  /** The row an INSERT that names only `question_id`, `user_id` and
      `updated_at` creates: every other column takes its declared default. */
  function DefaultRow(userId: int, updatedAt: int): (r: Row)
    ensures r.correctCount == 0 && r.partiallyCorrectCount == 0 && r.incorrectCount == 0
    ensures !r.reviewed && !r.lackingContext
    ensures r.userId == userId && r.updatedAt == updatedAt
  {
    Row(0, 0, 0, false, false, userId, updatedAt)
  }

  /** The game database: the two progress tables. */
  datatype ProgressStore = ProgressStore(chemistry: Table, physics: Table)
  {
    function TableOf(s: Subject): Table
    {
      match s
      case Chemistry => chemistry
      case Physics => physics
    }

    function WithTable(s: Subject, t: Table): (r: ProgressStore)
      ensures r.TableOf(s) == t
      ensures forall o :: o != s ==> r.TableOf(o) == TableOf(o)
    {
      match s
      case Chemistry => this.(chemistry := t)
      case Physics => this.(physics := t)
    }
  }

  /** What `create_game_database` leaves behind on first start. */
  const EmptyStore := ProgressStore(map[], map[])

  /** A row of the `questions` table of a question bank. A NULL
      `syllabus_link` is `None`. */
  datatype Question = Question(
    id: int,
    html: string,
    paper: string,
    referenceCode: string,
    syllabusLink: Option<string>,
    maximumMarks: int,
    level: string,
    markschemeHtml: string,
    examinerReportHtml: string)

  /** The two question banks, each a sequence of question rows. */
  datatype QuestionBanks = QuestionBanks(chemistry: seq<Question>, physics: seq<Question>)
  {
    function BankOf(s: Subject): seq<Question>
    {
      match s
      case Chemistry => chemistry
      case Physics => physics
    }
  }

  /** The bank a subject name selects, by the same dispatch as the progress
      tables. */
  function Bank(banks: QuestionBanks, subject: string): seq<Question>
  {
    banks.BankOf(SubjectOf(subject))
  }
}

=== FILE: selection.dfy ===
/** The selection engine of backend/question_handler.py. Each selector
    reads the ids this user has reviewed in the subject's progress table,
    keeps the bank's questions that match its filter and are not among
    those ids, and draws one of them with `ORDER BY RANDOM() LIMIT 1`.
    The draw is an oracle: `pick` chooses among the candidates, so every
    statement made here holds for every possible draw. */
module Selection {
  import opened Wrappers
  import opened Text
  import opened Schema
  import opened Progress

  /** The ids a selector leaves out: `SELECT question_id FROM
      user_progress_<subject> WHERE reviewed = 1 AND user_id = u`. */
  function ExcludedIds(store: ProgressStore, subject: string, u: int): (r: set<int>)
    ensures r <= store.TableOf(SubjectOf(subject)).Keys
    ensures forall id :: id in r <==> id in store.TableOf(SubjectOf(subject))
                                      && store.TableOf(SubjectOf(subject))[id].reviewed
                                      && store.TableOf(SubjectOf(subject))[id].userId == u
  {
    ReviewedIds(store.TableOf(SubjectOf(subject)), u)
  }

  /** The three filters of the selectors. */
  datatype Filter = AnyQuestion | ByPaper(paper: string) | BySyllabus(target: string)

  /** `syllabus_link LIKE '%t%' OR syllabus_link LIKE '%||t%'` with `t`
      already stripped; a NULL link matches neither pattern, and the second
      pattern never matches where the first does not. */
  function LinkMatches(link: Option<string>, t: string): (b: bool)
    ensures b <==> link.Some? && Contains(link.value, t)
  {
    link.Some? && (PipePatternSubsumed(link.value, t); Contains(link.value, t) || Contains(link.value, "||" + t))
  }

  predicate Matches(f: Filter, q: Question) {
    match f
    case AnyQuestion => true
    case ByPaper(p) => q.paper == p
    case BySyllabus(t) => LinkMatches(q.syllabusLink, t)
  }

  /** The rows the selector's query can return, in bank order. */
  function Candidates(bank: seq<Question>, excluded: set<int>, f: Filter): (c: seq<Question>)
    ensures forall q :: q in c <==> q in bank && q.id !in excluded && Matches(f, q)
    ensures |c| <= |bank|
  {
    if |bank| == 0 then []
    else
      var rest := Candidates(bank[1..], excluded, f);
      assert forall q :: q in bank <==> q == bank[0] || q in bank[1..];
      if bank[0].id !in excluded && Matches(f, bank[0]) then [bank[0]] + rest else rest
  }

  /** `ORDER BY RANDOM() LIMIT 1` followed by `fetchone()`: `None` from an
      empty result, otherwise the candidate the draw lands on. */
  function Draw(c: seq<Question>, pick: nat): (r: Option<Question>)
    ensures r.None? <==> |c| == 0
    ensures r.Some? ==> r.value in c
  {
    if |c| == 0 then None else Some(c[pick % |c|])
  }

  /** The common shape of the three selectors. The source issues a second
      query without `NOT IN` when the reviewed list is empty; both queries
      return the same rows, so one definition covers both. */
  function Select(banks: QuestionBanks, store: ProgressStore, subject: string, u: int, f: Filter, pick: nat)
    : (r: Option<Question>)
    ensures r.Some? ==> (r.value in Bank(banks, subject)
                         && r.value.id !in ExcludedIds(store, subject, u) && Matches(f, r.value))
    ensures r.None? <==> (forall q :: q in Bank(banks, subject)
                           ==> q.id in ExcludedIds(store, subject, u) || !Matches(f, q))
  {
    var c := Candidates(Bank(banks, subject), ExcludedIds(store, subject, u), f);
    NoCandidates(Bank(banks, subject), ExcludedIds(store, subject, u), f);
    Draw(c, pick)
  }

  lemma NoCandidates(bank: seq<Question>, excluded: set<int>, f: Filter)
    ensures Candidates(bank, excluded, f) == [] <==> forall q :: q in bank ==> q.id in excluded || !Matches(f, q)
  {
    var c := Candidates(bank, excluded, f);
    if c != [] {
      assert c[0] in c;
    }
  }

  /** `get_random_question(subject, user_id)`. */
  function GetRandomQuestion(banks: QuestionBanks, store: ProgressStore, subject: string, u: int, pick: nat)
    : (r: Option<Question>)
    ensures r.Some? ==> r.value in Bank(banks, subject) && r.value.id !in ExcludedIds(store, subject, u)
    ensures r.None? <==> forall q :: q in Bank(banks, subject) ==> q.id in ExcludedIds(store, subject, u)
  {
    Select(banks, store, subject, u, AnyQuestion, pick)
  }

  /** `get_random_question_by_paper(subject, paper, user_id)`. */
  function GetRandomQuestionByPaper(banks: QuestionBanks, store: ProgressStore, subject: string, paper: string,
                                    u: int, pick: nat)
    : (r: Option<Question>)
    ensures r.Some? ==> (r.value in Bank(banks, subject) && r.value.paper == paper
                         && r.value.id !in ExcludedIds(store, subject, u))
    ensures r.None? <==> (forall q :: q in Bank(banks, subject) && q.paper == paper
                           ==> q.id in ExcludedIds(store, subject, u))
  {
    Select(banks, store, subject, u, ByPaper(paper), pick)
  }

  /** `get_questions_by_syllabus(subject, selected_syllabus, user_id)`: the
      target is stripped first; a question qualifies when its link holds
      the stripped target. */
  function GetQuestionsBySyllabus(banks: QuestionBanks, store: ProgressStore, subject: string, selected: string,
                                  u: int, pick: nat)
    : (r: Option<Question>)
    ensures r.Some? ==> (r.value in Bank(banks, subject)
                         && r.value.syllabusLink.Some? && Contains(r.value.syllabusLink.value, Strip(selected))
                         && r.value.id !in ExcludedIds(store, subject, u))
    ensures r.None? <==> (forall q :: q in Bank(banks, subject)
                                  && q.syllabusLink.Some? && Contains(q.syllabusLink.value, Strip(selected))
                           ==> q.id in ExcludedIds(store, subject, u))
  {
    var t := Strip(selected);
    forall q | q in Bank(banks, subject) ensures LinkMatches(q.syllabusLink, t)
      <==> q.syllabusLink.Some? && Contains(q.syllabusLink.value, t)
    {
      if q.syllabusLink.Some? {
        PipePatternSubsumed(q.syllabusLink.value, t);
      }
    }
    Select(banks, store, subject, u, BySyllabus(t), pick)
  }

  /** The second `LIKE` pattern adds nothing: a link holding "||" + t
      holds t. */
  lemma PipePatternSubsumed(link: string, t: string)
    ensures Contains(link, "||" + t) ==> Contains(link, t)
  {
    if Contains(link, "||" + t) {
      var k :| 0 <= k <= |link| - |"||" + t| && OccursAt(link, "||" + t, k);
      SliceOfOccurrence(link, "||" + t, k, 2, |t|);
      assert ("||" + t)[2..2 + |t|] == t;
      assert OccursAt(link, t, k + 2);
    }
  }

  /** The draw that lands on a given candidate of a selector. */
  lemma PickFor(banks: QuestionBanks, store: ProgressStore, subject: string, u: int, f: Filter, q: Question)
    returns (pick: nat)
    requires q in Bank(banks, subject) && q.id !in ExcludedIds(store, subject, u) && Matches(f, q)
    ensures Select(banks, store, subject, u, f, pick) == Some(q)
  {
    var c := Candidates(Bank(banks, subject), ExcludedIds(store, subject, u), f);
    pick := DrawAt(c, q);
    assert Select(banks, store, subject, u, f, pick) == Draw(c, pick);
  }

  lemma DrawAt(c: seq<Question>, q: Question) returns (pick: nat)
    requires q in c
    ensures Draw(c, pick) == Some(q)
  {
    var i :| 0 <= i < |c| && c[i] == q;
    assert i % |c| == i;
    pick := i;
  }

  /** Every candidate can be drawn: the validity filter of the progress
      counts plays no part in selection, so a question it rejects is still
      served as long as the user has not reviewed it. */
  lemma EveryCandidateCanBeDrawn(banks: QuestionBanks, store: ProgressStore, subject: string, u: int, q: Question)
    requires q in Bank(banks, subject) && q.id !in ExcludedIds(store, subject, u)
    ensures exists pick :: GetRandomQuestion(banks, store, subject, u, pick) == Some(q)
  {
    var pick := PickFor(banks, store, subject, u, AnyQuestion, q);
    assert GetRandomQuestion(banks, store, subject, u, pick) == Some(q);
  }

  /** The same for the paper selector. */
  lemma EveryPaperCandidateCanBeDrawn(banks: QuestionBanks, store: ProgressStore, subject: string, u: int, q: Question)
    requires q in Bank(banks, subject) && q.id !in ExcludedIds(store, subject, u)
    ensures exists pick :: GetRandomQuestionByPaper(banks, store, subject, q.paper, u, pick) == Some(q)
  {
    var pick := PickFor(banks, store, subject, u, ByPaper(q.paper), q);
    assert GetRandomQuestionByPaper(banks, store, subject, q.paper, u, pick) == Some(q);
  }

  // ---------------------------------------------------------------------
  // Selection after the writes of the progress tracker
  // ---------------------------------------------------------------------

  /** Once a question is answered or marked as lacking context, no
      selector serves it to that user again in that subject. */
  lemma MarkedQuestionNotServed(banks: QuestionBanks, store: ProgressStore, subject: string, q: int, u: int,
                                now: int, f: Filter, pick: nat)
    ensures var after := MarkAsLackingContext(store, subject, q, u, now);
      var r := Select(banks, after, subject, u, f, pick);
      r.Some? ==> r.value.id != q
  {
  }

  /** After a reset the user's pool is the whole bank again. */
  lemma ResetRestoresPool(banks: QuestionBanks, store: ProgressStore, subject: string, u: int, pick: nat)
    ensures var after := ResetProgress(store, subject, u);
      && ExcludedIds(after, subject, u) == {}
      && (GetRandomQuestion(banks, after, subject, u, pick).None? <==> |Bank(banks, subject)| == 0)
  {
    var after := ResetProgress(store, subject, u);
    if |Bank(banks, subject)| > 0 {
      assert Bank(banks, subject)[0] in Bank(banks, subject);
    }
  }

  /** Removing a question from history re-admits it for the user in every
      chemistry mode; in physics the pool is unchanged. */
  lemma RemoveReadmitsChemistryOnly(store: ProgressStore, q: int, u: int)
    ensures q !in ExcludedIds(RemoveQuestionFromProgress(store, q, u), "Chemistry", u)
    ensures ExcludedIds(RemoveQuestionFromProgress(store, q, u), "Physics", u) == ExcludedIds(store, "Physics", u)
  {
  }

  /** One user's answer takes a question back out of another user's
      exclusion set: that user may be served it again. */
  lemma AnswerReadmitsForOtherUser(store: ProgressStore, subject: string, q: int, u: int, v: int, now: int)
    requires u != v
    requires q in ExcludedIds(store, subject, v)
    ensures q !in ExcludedIds(UpdateProgress(store, subject, q, "correct", u, now), subject, v)
  {
  }

  /** The worked examples of syllabus matching: both alternatives of a
      multi-valued link match, a reversed path does not. */
  lemma SyllabusMatchExamples()
    ensures LinkMatches(Some("A \U{BB} B||C \U{BB} D"), "C \U{BB} D")
    ensures LinkMatches(Some("A \U{BB} B||C \U{BB} D"), "A \U{BB} B")
    ensures !LinkMatches(Some("A \U{BB} B||C \U{BB} D"), "B \U{BB} A")
  {
    var link := "A \U{BB} B||C \U{BB} D";
    assert OccursAt(link, "C \U{BB} D", 7);
    assert OccursAt(link, "A \U{BB} B", 0);
    // The target ends in 'A', and the only 'A' of the link is its first
    // character; the same holds for the "||" pattern.
    forall k | 0 <= k <= |link| - 5 ensures !OccursAt(link, "B \U{BB} A", k) {
      assert link[k..k + 5][4] == link[k + 4];
      assert k == 0 || k == 1 || k == 2 || k == 3 || k == 4 || k == 5 || k == 6 || k == 7;
    }
    forall k | 0 <= k <= |link| - 7 ensures !OccursAt(link, "||B \U{BB} A", k) {
      assert link[k..k + 7][6] == link[k + 6];
      assert k == 0 || k == 1 || k == 2 || k == 3 || k == 4 || k == 5;
    }
    assert "||" + "B \U{BB} A" == "||B \U{BB} A";
  }

  // ---------------------------------------------------------------------
  // Syllabus links
  // ---------------------------------------------------------------------

  /** `get_all_syllabus_links(subject)`: the distinct non-NULL links,
      stripped, in ascending order. */
  function GetAllSyllabusLinks(banks: QuestionBanks, subject: string): (r: seq<string>)
    ensures StrictlyIncreasing(r)
    ensures forall x :: x in r <==> (exists q :: q in Bank(banks, subject)
                                             && q.syllabusLink.Some? && Strip(q.syllabusLink.value) == x)
  {
    SortedLinks(Bank(banks, subject))
  }

  function SortedLinks(qs: seq<Question>): (r: seq<string>)
    ensures StrictlyIncreasing(r)
    ensures forall x :: x in r <==> exists q :: q in qs && q.syllabusLink.Some? && Strip(q.syllabusLink.value) == x
  {
    if |qs| == 0 then []
    else
      var rest := SortedLinks(qs[1..]);
      assert forall q :: q in qs <==> q == qs[0] || q in qs[1..];
      match qs[0].syllabusLink
      case None => rest
      case Some(link) => InsertSorted(rest, Strip(link))
  }

  /** No link appears twice in the list. */
  lemma SyllabusLinksDistinct(banks: QuestionBanks, subject: string)
    ensures var r := GetAllSyllabusLinks(banks, subject);
      forall i, j :: 0 <= i < j < |r| ==> r[i] != r[j]
  {
    StrictlyIncreasingDistinct(GetAllSyllabusLinks(banks, subject));
  }

  /** Each listed syllabus link, passed back to the syllabus selector,
      finds the unreviewed questions it was listed for: the selector strips
      it again, which changes nothing, and a stripped link occurs in the
      link it came from. */
  lemma ListedLinkFindsItsQuestion(banks: QuestionBanks, store: ProgressStore, subject: string, u: int,
                                   q: Question, pick: nat)
    requires q in Bank(banks, subject) && q.syllabusLink.Some?
    requires q.id !in ExcludedIds(store, subject, u)
    ensures Strip(q.syllabusLink.value) in GetAllSyllabusLinks(banks, subject)
    ensures GetQuestionsBySyllabus(banks, store, subject, Strip(q.syllabusLink.value), u, pick).Some?
  {
    var link := q.syllabusLink.value;
    var x := Strip(link);
    StripIdempotent(link);
    StripInfix(link);
    var k :| OccursAt(link, x, k);
    assert Contains(link, Strip(x));
  }
}

=== FILE: session.dfy ===
/** Whole sessions of the quiz: any sequence of the writes progress.py
    offers, replayed from the empty game database. Because every answer is
    recorded as a "lacking context" mark, the stores such a session can
    reach have every row reviewed, lacking context and with zero counters,
    so the progress numerator and the analytics totals never move. */
module Session {
  import opened Wrappers
  import opened Schema
  import opened Progress
  import opened Views

  /** One call into the progress tracker; `now` is the clock value the
      database would stamp. */
  datatype Action =
    | Mark(subject: string, q: int, u: int, now: int)
    | Answer(subject: string, q: int, status: string, u: int, now: int)
    | Reset(subject: string, u: int)
    | Remove(q: int, u: int)

  /** The shape of every row a session writes. */
  predicate SettledRow(row: Row) {
    row.reviewed && row.lackingContext && ZeroCounters(row)
  }

  predicate SettledTable(t: Table) {
    forall p :: p in t ==> SettledRow(t[p])
  }

  predicate Settled(store: ProgressStore) {
    SettledTable(store.chemistry) && SettledTable(store.physics)
  }

  function Step(store: ProgressStore, a: Action): (r: ProgressStore)
    ensures Settled(store) ==> Settled(r)
  {
    match a
    case Mark(subject, q, u, now) => MarkAsLackingContext(store, subject, q, u, now)
    case Answer(subject, q, status, u, now) => UpdateProgress(store, subject, q, status, u, now)
    case Reset(subject, u) => ResetProgress(store, subject, u)
    case Remove(q, u) => RemoveQuestionFromProgress(store, q, u)
  }

  /** The store after the actions, applied in order. */
  function Run(store: ProgressStore, actions: seq<Action>): (r: ProgressStore)
    ensures Settled(store) ==> Settled(r)
    decreases |actions|
  {
    if |actions| == 0 then store
    else Run(Step(store, actions[0]), actions[1..])
  }

  /** Replaying two sessions one after the other is replaying their
      concatenation. */
  lemma {:induction false} RunAppend(store: ProgressStore, xs: seq<Action>, ys: seq<Action>)
    ensures Run(store, xs + ys) == Run(Run(store, xs), ys)
    decreases |xs|
  {
    if |xs| > 0 {
      assert (xs + ys)[0] == xs[0];
      assert (xs + ys)[1..] == xs[1..] + ys;
      RunAppend(Step(store, xs[0]), xs[1..], ys);
    } else {
      assert xs + ys == ys;
    }
  }

  /** Every store a session reaches from the empty database is settled. */
  lemma ReachableIsSettled(actions: seq<Action>)
    ensures Settled(Run(EmptyStore, actions))
  {
  }

  /** In a settled store no row counts toward the progress numerator. */
  lemma SettledNumeratorIsZero(banks: QuestionBanks, store: ProgressStore, subject: string, u: int)
    requires Settled(store)
    ensures GetProgress(banks, store, subject, u).reviewed == 0
  {
    var t := store.TableOf(SubjectOf(subject));
    assert SettledTable(t);
    assert forall p :: p !in CompletedIds(t, u);
    assert CompletedIds(t, u) == {};
  }

  /** However many questions a user answers, the progress bar of every
      subject stays at zero. */
  lemma ProgressNeverAdvances(banks: QuestionBanks, actions: seq<Action>, subject: string, u: int)
    ensures GetProgress(banks, Run(EmptyStore, actions), subject, u).reviewed == 0
  {
    SettledNumeratorIsZero(banks, Run(EmptyStore, actions), subject, u);
  }

  /** However many questions a user answers, the analytics of a known
      subject report zero correct, partially correct and incorrect. */
  lemma AnalyticsStayZero(actions: seq<Action>, subject: string, u: int, scan: seq<int>)
    requires subject == "Chemistry" || subject == "Physics"
    requires Enumerates(Run(EmptyStore, actions).TableOf(SubjectOf(subject)), scan)
    ensures ShowAnalytics(Run(EmptyStore, actions), subject, u, scan) == Some(Totals(0, 0, 0))
  {
    var t := Run(EmptyStore, actions).TableOf(SubjectOf(subject));
    assert SettledTable(t);
    UserColumnBounds(t, u, scan, Correct);
    UserColumnBounds(t, u, scan, PartiallyCorrect);
    UserColumnBounds(t, u, scan, Incorrect);
  }

  /** Every line of the history of a settled store shows zero for all
      three outcomes. */
  lemma HistoryShowsZeroCounts(banks: QuestionBanks, store: ProgressStore, subject: string, u: int, scan: seq<int>)
    requires Settled(store)
    requires subject == "Chemistry" || subject == "Physics"
    requires Enumerates(store.TableOf(SubjectOf(subject)), scan)
    ensures forall e :: e in ShowHistory(banks, store, subject, u, scan).value
                        ==> e.correct == 0 && e.partial == 0 && e.incorrect == 0
  {
    var t := store.TableOf(SubjectOf(subject));
    assert SettledTable(t);
    var rows := RecentHistory(t, u, scan);
    var entries := Resolve(Bank(banks, subject), rows);
    assert ShowHistory(banks, store, subject, u, scan).value == entries;
    forall e | e in entries ensures e.correct == 0 && e.partial == 0 && e.incorrect == 0 {
      var i :| 0 <= i < |rows| && rows[i] == RowPart(e);
      assert rows[i] == RowOf(t, rows[i].questionId);
    }
  }

  /** A question a user has answered is never served to that user again,
      until the user resets the subject or removes the question. */
  lemma AnsweredStaysExcluded(store: ProgressStore, subject: string, q: int, status: string, u: int, now: int,
                              rest: seq<Action>)
    requires IsOutcome(status)
    requires forall i :: 0 <= i < |rest| ==> !rest[i].Reset? && !rest[i].Remove?
    requires forall i :: 0 <= i < |rest| && (rest[i].Mark? || rest[i].Answer?) ==> rest[i].u == u
    ensures var t := Run(UpdateProgress(store, subject, q, status, u, now), rest).TableOf(SubjectOf(subject));
      q in ReviewedIds(t, u)
  {
    KeptReviewed(UpdateProgress(store, subject, q, status, u, now), SubjectOf(subject), q, u, rest);
  }

  lemma {:induction false} KeptReviewed(store: ProgressStore, s: Subject, q: int, u: int, rest: seq<Action>)
    requires q in ReviewedIds(store.TableOf(s), u)
    requires forall i :: 0 <= i < |rest| ==> !rest[i].Reset? && !rest[i].Remove?
    requires forall i :: 0 <= i < |rest| && (rest[i].Mark? || rest[i].Answer?) ==> rest[i].u == u
    ensures q in ReviewedIds(Run(store, rest).TableOf(s), u)
    decreases |rest|
  {
    if |rest| > 0 {
      var next := Step(store, rest[0]);
      assert q in ReviewedIds(next.TableOf(s), u);
      assert forall i :: 1 <= i < |rest| ==> rest[1..][i - 1] == rest[i];
      KeptReviewed(next, s, q, u, rest[1..]);
    }
  }
}

=== FILE: text.dfy ===
/** The few Python string operations the engine relies on: `str.strip()`,
    `str.split(sep)`, `sep.join(parts)`, `str.isdigit()`, the `<` order
    that `sorted` uses, and substring containment (what the `LIKE '%t%'`
    filters of the selection queries test). */
module Text {

  // ---------------------------------------------------------------------
  // Characters
  // ---------------------------------------------------------------------

  /** The characters `str.strip()` removes, restricted to ASCII: space,
      the C0 controls \t \n \v \f \r and the separators \x1c..\x1f. */
  predicate IsSpace(c: char) {
    c == ' ' || c == '\t' || c == '\n' || c == '\r' || c == '\U{B}' || c == '\U{C}'
    || ('\U{1C}' <= c <= '\U{1F}')
  }

  predicate IsDigit(c: char) {
    '0' <= c <= '9'
  }

  /** `str.isdigit()`: true of a non-empty string of digits only. */
  predicate IsDigits(s: string) {
    |s| > 0 && forall i :: 0 <= i < |s| ==> IsDigit(s[i])
  }

  predicate AllSpace(s: string) {
    forall i :: 0 <= i < |s| ==> IsSpace(s[i])
  }

  /** No leading or trailing whitespace: what `strip()` leaves behind. */
  predicate Stripped(s: string) {
    |s| == 0 || (!IsSpace(s[0]) && !IsSpace(s[|s| - 1]))
  }

  // ---------------------------------------------------------------------
  // Substrings
  // ---------------------------------------------------------------------

  /** `sub` occurs in `s` at offset `k`. */
  predicate OccursAt(s: string, sub: string, k: int) {
    0 <= k && k + |sub| <= |s| && s[k..k + |sub|] == sub
  }

  /** `sub` occurs somewhere in `s` (Python's `sub in s`). */
  predicate Contains(s: string, sub: string) {
    exists k :: 0 <= k <= |s| - |sub| && OccursAt(s, sub, k)
  }

  /** `r` is a contiguous piece of `s`. */
  ghost predicate Infix(r: string, s: string) {
    exists k :: OccursAt(s, r, k)
  }

  /** A slice of a piece found at offset `k` is the matching slice of the
      whole. */
  lemma SliceOfOccurrence(s: string, r: string, k: int, i: int, n: int)
    requires OccursAt(s, r, k)
    requires 0 <= i && 0 <= n && i + n <= |r|
    ensures r[i..i + n] == s[k + i..k + i + n]
  {
    var a, b := r[i..i + n], s[k + i..k + i + n];
    forall t | 0 <= t < n ensures a[t] == b[t] {
      assert r[i + t] == s[k..k + |r|][i + t];
    }
  }

  lemma InfixTransitive(a: string, b: string, c: string)
    requires Infix(a, b) && Infix(b, c)
    ensures Infix(a, c)
  {
    var i :| OccursAt(b, a, i);
    var j :| OccursAt(c, b, j);
    SliceOfOccurrence(c, b, j, i, |a|);
    assert OccursAt(c, a, j + i);
  }

  /** A piece of a string without `sub` does not contain `sub` either. */
  lemma InfixAvoids(r: string, s: string, sub: string)
    requires Infix(r, s) && !Contains(s, sub)
    ensures !Contains(r, sub)
  {
    var k :| OccursAt(s, r, k);
    forall i | 0 <= i <= |r| - |sub| ensures !OccursAt(r, sub, i) {
      SliceOfOccurrence(s, r, k, i, |sub|);
      assert !OccursAt(s, sub, k + i);
    }
  }

  /** A piece of a string without the character `c` does not hold `c`. */
  lemma InfixAvoidsChar(r: string, s: string, c: char)
    requires Infix(r, s) && c !in s
    ensures c !in r
  {
    var k :| OccursAt(s, r, k);
    forall i | 0 <= i < |r| ensures r[i] != c {
      assert r[i] == s[k..k + |r|][i];
    }
  }

  /** The one-character string `[c]` occurs in `s` exactly when `s` holds
      `c`. */
  lemma CharOccurrence(s: string, c: char)
    ensures Contains(s, [c]) <==> c in s
  {
    if c in s {
      var i :| 0 <= i < |s| && s[i] == c;
      assert s[i..i + 1] == [c];
      assert OccursAt(s, [c], i);
    } else {
      forall k | 0 <= k <= |s| - 1 ensures !OccursAt(s, [c], k) {
        assert s[k..k + 1][0] == s[k];
      }
    }
  }

  // ---------------------------------------------------------------------
  // strip()
  // ---------------------------------------------------------------------

  function TrimLeft(s: string): (r: string)
    ensures |r| <= |s|
    ensures r == s[|s| - |r|..]
    ensures AllSpace(s[..|s| - |r|])
    ensures |r| == 0 || !IsSpace(r[0])
  {
    if |s| > 0 && IsSpace(s[0]) then
      var r := TrimLeft(s[1..]);
      assert s[..|s| - |r|] == [s[0]] + s[1..][..|s| - 1 - |r|];
      r
    else s
  }

  function TrimRight(s: string): (r: string)
    ensures |r| <= |s|
    ensures r == s[..|r|]
    ensures AllSpace(s[|r|..])
    ensures |r| == 0 || !IsSpace(r[|r| - 1])
  {
    if |s| > 0 && IsSpace(s[|s| - 1]) then
      var r := TrimRight(s[..|s| - 1]);
      assert s[|r|..] == s[..|s| - 1][|r|..] + [s[|s| - 1]];
      r
    else s
  }

  /** `str.strip()`: drops the whitespace at both ends and keeps the rest. */
  function Strip(s: string): (r: string)
    ensures Stripped(r)
    ensures |r| == 0 <==> AllSpace(s)
    ensures Stripped(s) ==> r == s
    ensures exists i, j :: 0 <= i <= j <= |s| && r == s[i..j] && AllSpace(s[..i]) && AllSpace(s[j..])
  {
    var l := TrimLeft(s);
    var r := TrimRight(l);
    assert |r| == 0 ==> AllSpace(s) by {
      if |r| == 0 {
        assert |l| == 0;
        assert s[..|s| - |l|] == s;
      }
    }
    TrimWindow(s, l, r);
    r
  }

  /** Cutting leading whitespace and then trailing whitespace keeps one
      stretch of `s` with only whitespace on either side. */
  lemma TrimWindow(s: string, l: string, r: string)
    requires |l| <= |s| && l == s[|s| - |l|..] && AllSpace(s[..|s| - |l|])
    requires |r| <= |l| && r == l[..|r|] && AllSpace(l[|r|..])
    ensures exists i, j :: 0 <= i <= j <= |s| && r == s[i..j] && AllSpace(s[..i]) && AllSpace(s[j..])
  {
    var i := |s| - |l|;
    assert r == s[i..i + |r|];
    assert s[i + |r|..] == l[|r|..];
  }

  /** What `strip()` keeps is one contiguous piece of its argument. */
  lemma StripInfix(s: string)
    ensures Infix(Strip(s), s)
  {
    var l := TrimLeft(s);
    var r := TrimRight(l);
    assert r == l[..|r|];
    assert s[|s| - |l|..][..|r|] == s[|s| - |l|..|s| - |l| + |r|];
    assert OccursAt(s, r, |s| - |l|);
  }

  lemma StripIdempotent(s: string)
    ensures Strip(Strip(s)) == Strip(s)
  {
  }

  /** Whitespace wrapped around a stripped, non-empty word strips back to
      the word. */
  lemma {:induction false} StripPadded(w1: string, p: string, w2: string)
    requires AllSpace(w1) && AllSpace(w2)
    requires |p| > 0 && Stripped(p)
    ensures Strip(w1 + p + w2) == p
  {
    assert w1 + p + w2 == w1 + (p + w2);
    assert (p + w2)[0] == p[0];
    TrimLeftPadded(w1, p + w2);
    TrimRightPadded(p, w2);
    assert Strip(w1 + p + w2) == TrimRight(TrimLeft(w1 + p + w2));
  }

  lemma {:induction false} TrimLeftPadded(w: string, p: string)
    requires AllSpace(w)
    requires |p| > 0 && !IsSpace(p[0])
    ensures TrimLeft(w + p) == p
  {
    if |w| > 0 {
      assert (w + p)[1..] == w[1..] + p;
      TrimLeftPadded(w[1..], p);
    } else {
      assert w + p == p;
    }
  }

  lemma {:induction false} TrimRightPadded(p: string, w: string)
    requires AllSpace(w)
    requires |p| > 0 && !IsSpace(p[|p| - 1])
    ensures TrimRight(p + w) == p
  {
    if |w| > 0 {
      assert (p + w)[..|p + w| - 1] == p + w[..|w| - 1];
      TrimRightPadded(p, w[..|w| - 1]);
    } else {
      assert p + w == p;
    }
  }

  // ---------------------------------------------------------------------
  // split() and join()
  // ---------------------------------------------------------------------

  /** `s.split(sep)`: scanning from the left, cut at each occurrence of
      `sep` and continue after it; empty pieces are kept. */
  function Split(s: string, sep: string): (r: seq<string>)
    requires |sep| > 0
    decreases |s|
    ensures |r| >= 1
    ensures r[0] <= s
  {
    if |s| < |sep| then [s]
    else if s[..|sep|] == sep then [""] + Split(s[|sep|..], sep)
    else
      var rest := Split(s[1..], sep);
      [[s[0]] + rest[0]] + rest[1..]
  }

  /** `sep.join(parts)`. */
  function Join(parts: seq<string>, sep: string): string
  {
    if |parts| == 0 then ""
    else if |parts| == 1 then parts[0]
    else parts[0] + sep + Join(parts[1..], sep)
  }

  lemma JoinCons(head: string, tail: seq<string>, sep: string)
    requires |tail| > 0
    ensures Join([head] + tail, sep) == head + sep + Join(tail, sep)
  {
    assert ([head] + tail)[1..] == tail;
  }

  /** Prepending characters to the first part prepends them to the join. */
  lemma {:induction false} JoinExtendFirst(c: string, parts: seq<string>, sep: string)
    requires |parts| > 0
    ensures Join([c + parts[0]] + parts[1..], sep) == c + Join(parts, sep)
  {
    if |parts| > 1 {
      JoinCons(c + parts[0], parts[1..], sep);
    } else {
      assert [c + parts[0]] + parts[1..] == [c + parts[0]];
    }
  }

  /** Splitting and joining with the same separator gives the string back. */
  lemma {:induction false} SplitJoin(s: string, sep: string)
    requires |sep| > 0
    ensures Join(Split(s, sep), sep) == s
    decreases |s|
  {
    if |s| < |sep| {
    } else if s[..|sep|] == sep {
      var tail := s[|sep|..];
      SplitJoin(tail, sep);
      assert Split(s, sep) == [""] + Split(tail, sep);
      JoinCons("", Split(tail, sep), sep);
      assert s == "" + sep + tail;
    } else {
      var rest := Split(s[1..], sep);
      SplitJoin(s[1..], sep);
      assert Split(s, sep) == [[s[0]] + rest[0]] + rest[1..];
      JoinExtendFirst([s[0]], rest, sep);
      assert s == [s[0]] + s[1..];
    }
  }

  /** With more than one piece, the last piece is shorter than the joined
      string. */
  lemma {:induction false} JoinLastShorter(parts: seq<string>, sep: string)
    requires |parts| > 1 && |sep| > 0
    ensures |Last(parts)| < |Join(parts, sep)|
    decreases |parts|
  {
    if |parts| > 2 {
      JoinLastShorter(parts[1..], sep);
      assert Last(parts[1..]) == Last(parts);
    }
  }

  /** No piece of a split holds the separator. */
  lemma {:induction false} SplitPiecesAvoid(s: string, sep: string)
    requires |sep| > 0
    ensures forall i :: 0 <= i < |Split(s, sep)| ==> !Contains(Split(s, sep)[i], sep)
    decreases |s|
  {
    var r := Split(s, sep);
    if |s| < |sep| {
    } else if s[..|sep|] == sep {
      SplitPiecesAvoid(s[|sep|..], sep);
      assert r == [""] + Split(s[|sep|..], sep);
      assert forall i :: 1 <= i < |r| ==> r[i] == Split(s[|sep|..], sep)[i - 1];
    } else {
      var rest := Split(s[1..], sep);
      SplitPiecesAvoid(s[1..], sep);
      var p := [s[0]] + rest[0];
      assert r == [p] + rest[1..];
      assert p <= s;
      forall j | 0 <= j <= |p| - |sep| ensures !OccursAt(p, sep, j) {
        if j == 0 {
          assert p[..|sep|] == s[..|sep|];
        } else {
          assert p[j..j + |sep|] == rest[0][j - 1..j - 1 + |sep|];
          assert !OccursAt(rest[0], sep, j - 1);
        }
      }
      assert forall i :: 1 <= i < |r| ==> r[i] == rest[i];
    }
  }

  /** Every piece of a split is a contiguous piece of the split string. */
  lemma {:induction false} SplitInfix(s: string, sep: string)
    requires |sep| > 0
    ensures forall i :: 0 <= i < |Split(s, sep)| ==> Infix(Split(s, sep)[i], s)
    decreases |s|
  {
    var r := Split(s, sep);
    assert OccursAt(s, r[0], 0);
    if |s| < |sep| {
    } else {
      var cut := s[..|sep|] == sep;
      var k := if cut then |sep| else 1;
      var tail := s[k..];
      var rest := Split(tail, sep);
      SplitInfix(tail, sep);
      assert OccursAt(s, tail, k);
      assert forall i :: 1 <= i < |r| ==> r[i] == rest[if cut then i - 1 else i];
      forall i | 1 <= i < |r| ensures Infix(r[i], s) {
        InfixTransitive(r[i], tail, s);
      }
    }
  }

  /** A string without the separator splits into itself alone. */
  lemma {:induction false} SplitNoSeparator(s: string, sep: string)
    requires |sep| > 0 && !Contains(s, sep)
    ensures Split(s, sep) == [s]
    decreases |s|
  {
    if |s| >= |sep| {
      assert !OccursAt(s, sep, 0);
      assert OccursAt(s, s[1..], 1);
      InfixAvoids(s[1..], s, sep);
      SplitNoSeparator(s[1..], sep);
      assert [s[0]] + s[1..] == s;
    }
  }

  /** The first piece ends where the separator first occurs. */
  lemma {:induction false} SplitAtFirstOccurrence(a: string, sep: string, b: string)
    requires |sep| > 0
    requires forall k :: 0 <= k < |a| ==> !OccursAt(a + sep + b, sep, k)
    ensures Split(a + sep + b, sep) == [a] + Split(b, sep)
    decreases |a|
  {
    var s := a + sep + b;
    if |a| == 0 {
      assert s[..|sep|] == sep;
      assert s[|sep|..] == b;
    } else {
      assert !OccursAt(s, sep, 0);
      var t := a[1..] + sep + b;
      assert s[1..] == t;
      forall k | 0 <= k < |a[1..]| ensures !OccursAt(t, sep, k) {
        assert !OccursAt(s, sep, k + 1);
        assert t[k..k + |sep|] == s[k + 1..k + 1 + |sep|];
      }
      SplitAtFirstOccurrence(a[1..], sep, b);
      assert [s[0]] + a[1..] == a;
    }
  }

  /** The first piece ends at the first one-character separator. */
  lemma SplitAtFirst(a: string, c: char, b: string)
    requires c !in a
    ensures Split(a + [c] + b, [c]) == [a] + Split(b, [c])
  {
    forall k | 0 <= k < |a| ensures !OccursAt(a + [c] + b, [c], k) {
      assert (a + [c] + b)[k] == a[k];
    }
    SplitAtFirstOccurrence(a, [c], b);
  }

  function Last<T>(xs: seq<T>): T
    requires |xs| > 0
  {
    xs[|xs| - 1]
  }

  /** The last piece of a split on the character `c`, e.g. Python's
      `s.split(".")[-1]`, is the suffix after the last `c` (all of `s` when
      it has none). */
  lemma {:induction false} LastPieceIsSuffix(s: string, c: char)
    ensures var p := Last(Split(s, [c]));
      && |p| <= |s| && p == s[|s| - |p|..] && c !in p
      && (|p| == |s| || s[|s| - |p| - 1] == c)
    decreases |s|
  {
    var r := Split(s, [c]);
    if |s| == 0 {
    } else if s[..1] == [c] {
      LastPieceIsSuffix(s[1..], c);
      assert r == [""] + Split(s[1..], [c]);
      assert Last(r) == Last(Split(s[1..], [c]));
      assert s[0] == c;
    } else {
      var rest := Split(s[1..], [c]);
      LastPieceIsSuffix(s[1..], c);
      assert r == [[s[0]] + rest[0]] + rest[1..];
      assert s[0] != c;
      if |rest| == 1 {
        SplitJoin(s[1..], [c]);
        assert Last(r) == [s[0]] + s[1..];
        assert [s[0]] + s[1..] == s;
      } else {
        assert Last(r) == Last(rest);
        SplitJoin(s[1..], [c]);
        JoinLastShorter(rest, [c]);
        var p := Last(rest);
        assert s[|s| - |p|..] == s[1..][|s| - 1 - |p|..];
        assert s[|s| - |p| - 1] == s[1..][|s| - 1 - |p| - 1];
      }
    }
  }

  /** Among the suffixes of `s`, exactly one has no `c` and starts at the
      beginning of `s` or right after a `c`. */
  lemma SuffixAfterLastUnique(s: string, c: char, k1: nat, k2: nat)
    requires k1 <= |s| && k2 <= |s|
    requires c !in s[k1..] && (k1 == 0 || s[k1 - 1] == c)
    requires c !in s[k2..] && (k2 == 0 || s[k2 - 1] == c)
    ensures k1 == k2
  {
    NoCharInSuffix(s, k1, c);
    NoCharInSuffix(s, k2, c);
  }

  lemma NoCharInSuffix(s: string, k: nat, c: char)
    requires k <= |s| && c !in s[k..]
    ensures forall i :: k <= i < |s| ==> s[i] != c
  {
    forall i | k <= i < |s| ensures s[i] != c {
      assert s[i] == s[k..][i - k];
    }
  }

  // ---------------------------------------------------------------------
  // The order `sorted()` uses on str
  // ---------------------------------------------------------------------

  /** Python's `a < b` on str: lexicographic by code point, a proper
      prefix before the longer string. */
  predicate Less(a: string, b: string)
    decreases |a|
  {
    if |a| == 0 then |b| > 0
    else if |b| == 0 then false
    else if a[0] != b[0] then a[0] < b[0]
    else Less(a[1..], b[1..])
  }

  lemma {:induction false} LessIrreflexive(a: string)
    ensures !Less(a, a)
    decreases |a|
  {
    if |a| > 0 {
      LessIrreflexive(a[1..]);
    }
  }

  lemma {:induction false} LessTransitive(a: string, b: string, c: string)
    requires Less(a, b) && Less(b, c)
    ensures Less(a, c)
    decreases |a|
  {
    if |a| > 0 && a[0] == b[0] && b[0] == c[0] {
      LessTransitive(a[1..], b[1..], c[1..]);
    }
  }

  lemma {:induction false} LessTotal(a: string, b: string)
    ensures a == b || Less(a, b) || Less(b, a)
    decreases |a|
  {
    if |a| > 0 && |b| > 0 && a[0] == b[0] {
      LessTotal(a[1..], b[1..]);
      if a[1..] == b[1..] {
        assert a == [a[0]] + a[1..] && b == [b[0]] + b[1..];
      }
    }
  }

  predicate StrictlyIncreasing(xs: seq<string>) {
    forall i, j :: 0 <= i < j < |xs| ==> Less(xs[i], xs[j])
  }

  /** Adds `x` to a sorted, duplicate-free list, keeping it so. */
  function InsertSorted(xs: seq<string>, x: string): (r: seq<string>)
    requires StrictlyIncreasing(xs)
    ensures StrictlyIncreasing(r)
    ensures forall y :: y in r <==> y in xs || y == x
  {
    if |xs| == 0 then [x]
    else if x == xs[0] then xs
    else if Less(x, xs[0]) then
      forall j | 0 < j < |xs| ensures Less(x, xs[j]) {
        LessTransitive(x, xs[0], xs[j]);
      }
      [x] + xs
    else
      LessTotal(x, xs[0]);
      var rest := InsertSorted(xs[1..], x);
      assert forall y :: y in rest ==> Less(xs[0], y) by {
        forall y | y in rest ensures Less(xs[0], y) {
          if y != x {
            var j :| 1 <= j < |xs| && xs[j] == y;
          }
        }
      }
      [xs[0]] + rest
  }

  lemma StrictlyIncreasingDistinct(xs: seq<string>)
    requires StrictlyIncreasing(xs)
    ensures forall i, j :: 0 <= i < j < |xs| ==> xs[i] != xs[j]
  {
    forall i, j | 0 <= i < j < |xs| ensures xs[i] != xs[j] {
      LessIrreflexive(xs[i]);
    }
  }
}

=== FILE: views.dfy ===
/** The read-side views of streamlit_app.py over the progress store: the
    sidebar progress ratio, the "Recently Answered Questions" history, and
    the analytics totals. */
module Views {
  import opened Wrappers
  import opened Schema
  import opened Progress

  // ---------------------------------------------------------------------
  // Progress ratio
  // ---------------------------------------------------------------------

  /** `reviewed / total if total > 0 else 0`: no division by zero. */
  function ProgressRatio(reviewed: nat, total: nat): (r: real)
    ensures total == 0 ==> r == 0.0
    ensures total > 0 ==> r * (total as real) == reviewed as real
  {
    if total > 0 then (reviewed as real) / (total as real) else 0.0
  }

  /** While the numerator does not exceed the denominator the ratio is a
      valid fill level for the progress bar. */
  lemma RatioInUnitInterval(reviewed: nat, total: nat)
    requires reviewed <= total
    ensures 0.0 <= ProgressRatio(reviewed, total) <= 1.0
  {
    if total > 0 {
      var r := ProgressRatio(reviewed, total);
      assert r * (total as real) == reviewed as real;
      assert r * (total as real) <= 1.0 * (total as real);
    }
  }

  // ---------------------------------------------------------------------
  // Scanning a table
  // ---------------------------------------------------------------------

  /** The order in which SQLite visits the rows of a table is not part of
      the model's state: the views take it as an input, a sequence that
      lists every key of the table exactly once. */
  predicate Enumerates(t: Table, scan: seq<int>) {
    && (forall i :: 0 <= i < |scan| ==> scan[i] in t)
    && (forall id :: id in t ==> id in scan)
    && (forall i, j :: 0 <= i < j < |scan| ==> scan[i] != scan[j])
  }

  // ---------------------------------------------------------------------
  // History
  // ---------------------------------------------------------------------

  /** `LIMIT 30` of the history query. */
  const HistoryLimit: nat := 30

  /** One row of the history query. */
  datatype HistoryRow = HistoryRow(questionId: int, correct: int, partial: int, incorrect: int, updatedAt: int)

  /** `WHERE user_id = ? AND reviewed = 1`: the history lists exactly the
      questions the selectors leave out for the user. */
  function InHistory(t: Table, u: int, id: int): (b: bool)
    ensures b <==> id in ReviewedIds(t, u)
  {
    id in t && t[id].userId == u && t[id].reviewed
  }

  /** The keys of the scan that pass the history filter, in scan order. */
  function HistoryIds(t: Table, u: int, scan: seq<int>): (r: seq<int>)
    ensures |r| <= |scan|
    ensures forall i :: 0 <= i < |r| ==> InHistory(t, u, r[i])
    ensures forall id :: id in r <==> id in scan && InHistory(t, u, id)
    ensures (forall i, j :: 0 <= i < j < |scan| ==> scan[i] != scan[j]) ==> forall i, j :: 0 <= i < j < |r| ==> r[i] != r[j]
  {
    if |scan| == 0 then []
    else
      var rest := HistoryIds(t, u, scan[1..]);
      assert forall id :: id in scan <==> id == scan[0] || id in scan[1..];
      assert (forall i, j :: 0 <= i < j < |scan| ==> scan[i] != scan[j]) ==> scan[0] !in scan[1..];
      if InHistory(t, u, scan[0]) then [scan[0]] + rest else rest
  }

  function RowOf(t: Table, id: int): HistoryRow
    requires id in t
  {
    HistoryRow(id, t[id].correctCount, t[id].partiallyCorrectCount, t[id].incorrectCount, t[id].updatedAt)
  }

  function ScanRows(t: Table, ids: seq<int>): (r: seq<HistoryRow>)
    requires forall i :: 0 <= i < |ids| ==> ids[i] in t
    ensures |r| == |ids|
    ensures forall i :: 0 <= i < |r| ==> r[i] == RowOf(t, ids[i])
  {
    if |ids| == 0 then [] else [RowOf(t, ids[0])] + ScanRows(t, ids[1..])
  }

  /** `ORDER BY updated_at DESC`. */
  predicate Descending(rs: seq<HistoryRow>) {
    forall i, j :: 0 <= i < j < |rs| ==> rs[i].updatedAt >= rs[j].updatedAt
  }

  predicate DistinctIds(rs: seq<HistoryRow>) {
    forall i, j :: 0 <= i < j < |rs| ==> rs[i].questionId != rs[j].questionId
  }

  /** Insert `x` after every row at least as recent. */
  function InsertDescending(rs: seq<HistoryRow>, x: HistoryRow): (r: seq<HistoryRow>)
    ensures |r| == |rs| + 1
    ensures forall y :: y in r <==> y in rs || y == x
    ensures multiset(r) == multiset(rs) + multiset{x}
  {
    if |rs| == 0 then [x]
    else if rs[0].updatedAt >= x.updatedAt then
      assert forall y :: y in rs <==> y == rs[0] || y in rs[1..];
      MultisetUncons(rs);
      [rs[0]] + InsertDescending(rs[1..], x)
    else [x] + rs
  }

  lemma {:induction false} InsertDescendingSorted(rs: seq<HistoryRow>, x: HistoryRow)
    requires Descending(rs)
    ensures Descending(InsertDescending(rs, x))
  {
    if |rs| > 0 && rs[0].updatedAt >= x.updatedAt {
      InsertDescendingSorted(rs[1..], x);
      var rest := InsertDescending(rs[1..], x);
      var r := [rs[0]] + rest;
      forall i, j | 0 <= i < j < |r| ensures r[i].updatedAt >= r[j].updatedAt {
        if i == 0 {
          assert r[j] in rest;
          assert r[j] in rs[1..] || r[j] == x;
        } else {
          assert r[i] == rest[i - 1] && r[j] == rest[j - 1];
        }
      }
    } else if |rs| > 0 {
      var r := [x] + rs;
      forall i, j | 0 <= i < j < |r| ensures r[i].updatedAt >= r[j].updatedAt {
        if i == 0 {
          assert r[j] == rs[j - 1];
          assert rs[0].updatedAt >= rs[j - 1].updatedAt || j - 1 == 0;
        } else {
          assert r[i] == rs[i - 1] && r[j] == rs[j - 1];
        }
      }
    }
  }

  lemma {:induction false} InsertDescendingDistinct(rs: seq<HistoryRow>, x: HistoryRow)
    requires DistinctIds(rs)
    requires forall i :: 0 <= i < |rs| ==> rs[i].questionId != x.questionId
    ensures DistinctIds(InsertDescending(rs, x))
  {
    if |rs| > 0 && rs[0].updatedAt >= x.updatedAt {
      InsertDescendingDistinct(rs[1..], x);
      var rest := InsertDescending(rs[1..], x);
      var r := [rs[0]] + rest;
      forall i, j | 0 <= i < j < |r| ensures r[i].questionId != r[j].questionId {
        if i == 0 {
          assert r[j] in rest;
          if r[j] != x {
            var k :| 0 <= k < |rs[1..]| && rs[1..][k] == r[j];
            assert rs[k + 1] == r[j];
          }
        } else {
          assert r[i] == rest[i - 1] && r[j] == rest[j - 1];
        }
      }
    } else if |rs| > 0 {
      var r := [x] + rs;
      forall i, j | 0 <= i < j < |r| ensures r[i].questionId != r[j].questionId {
        assert r[j] == rs[j - 1];
        if i > 0 {
          assert r[i] == rs[i - 1];
        }
      }
    }
  }

  function SortDescending(rs: seq<HistoryRow>): (r: seq<HistoryRow>)
    ensures |r| == |rs|
    ensures Descending(r)
    ensures forall y :: y in r <==> y in rs
    ensures multiset(r) == multiset(rs)
    ensures DistinctIds(rs) ==> DistinctIds(r)
  {
    if |rs| == 0 then []
    else
      var rest := SortDescending(rs[1..]);
      MultisetUncons(rs);
      assert forall y :: y in rs <==> y == rs[0] || y in rs[1..];
      InsertDescendingSorted(rest, rs[0]);
      assert DistinctIds(rs) ==> DistinctIds(InsertDescending(rest, rs[0])) by {
        if DistinctIds(rs) {
          assert DistinctIds(rs[1..]) by {
            forall i, j | 0 <= i < j < |rs[1..]| ensures rs[1..][i].questionId != rs[1..][j].questionId {
              assert rs[1..][i] == rs[i + 1] && rs[1..][j] == rs[j + 1];
            }
          }
          forall i | 0 <= i < |rest| ensures rest[i].questionId != rs[0].questionId {
            assert rest[i] in rs[1..];
            var j :| 0 <= j < |rs[1..]| && rs[1..][j] == rest[i];
            assert rs[j + 1] == rest[i];
          }
          InsertDescendingDistinct(rest, rs[0]);
        }
      }
      InsertDescending(rest, rs[0])
  }

  lemma MultisetUncons<T>(xs: seq<T>)
    requires |xs| > 0
    ensures multiset(xs) == multiset(xs[1..]) + multiset{xs[0]}
  {
    assert xs == [xs[0]] + xs[1..];
  }

  function Min(a: nat, b: nat): nat {
    if a <= b then a else b
  }

  /** The history query: this user's reviewed rows, most recent first, at
      most thirty of them; among rows with the same `updated_at` the scan
      order decides. */
  function RecentHistory(t: Table, u: int, scan: seq<int>): (r: seq<HistoryRow>)
    requires Enumerates(t, scan)
    ensures |r| == Min(HistoryLimit, |HistoryIds(t, u, scan)|)
    ensures forall i :: 0 <= i < |r| ==> InHistory(t, u, r[i].questionId) && r[i] == RowOf(t, r[i].questionId)
    ensures Descending(r)
    ensures DistinctIds(r)
    ensures forall id :: InHistory(t, u, id) && (forall i :: 0 <= i < |r| ==> r[i].questionId != id)
                         ==> forall i :: 0 <= i < |r| ==> r[i].updatedAt >= t[id].updatedAt
  {
    var ids := HistoryIds(t, u, scan);
    var sorted := SortDescending(ScanRows(t, ids));
    var r := sorted[..Min(HistoryLimit, |sorted|)];
    HistoryProperties(t, u, scan, ids, sorted, r);
    r
  }

  lemma HistoryProperties(t: Table, u: int, scan: seq<int>, ids: seq<int>, sorted: seq<HistoryRow>, r: seq<HistoryRow>)
    requires Enumerates(t, scan)
    requires ids == HistoryIds(t, u, scan)
    requires sorted == SortDescending(ScanRows(t, ids))
    requires r == sorted[..Min(HistoryLimit, |sorted|)]
    ensures forall i :: 0 <= i < |r| ==> InHistory(t, u, r[i].questionId) && r[i] == RowOf(t, r[i].questionId)
    ensures DistinctIds(r)
    ensures forall id :: InHistory(t, u, id) && (forall i :: 0 <= i < |r| ==> r[i].questionId != id)
                         ==> forall i :: 0 <= i < |r| ==> r[i].updatedAt >= t[id].updatedAt
  {
    HistoryRowsMatch(t, u, ids, sorted, r);
    forall id | InHistory(t, u, id) ensures RowOf(t, id) in sorted {
      HistoryRowSorted(t, u, scan, ids, sorted, id);
    }
    HistoryKeepsMostRecent(t, u, sorted, Min(HistoryLimit, |sorted|), r);
  }

  lemma HistoryRowsMatch(t: Table, u: int, ids: seq<int>, sorted: seq<HistoryRow>, r: seq<HistoryRow>)
    requires forall i :: 0 <= i < |ids| ==> ids[i] in t && InHistory(t, u, ids[i])
    requires forall i, j :: 0 <= i < j < |ids| ==> ids[i] != ids[j]
    requires sorted == SortDescending(ScanRows(t, ids))
    requires r == sorted[..Min(HistoryLimit, |sorted|)]
    ensures forall i :: 0 <= i < |r| ==> InHistory(t, u, r[i].questionId) && r[i] == RowOf(t, r[i].questionId)
    ensures DistinctIds(r)
  {
    var all := ScanRows(t, ids);
    forall i | 0 <= i < |r| ensures InHistory(t, u, r[i].questionId) && r[i] == RowOf(t, r[i].questionId) {
      assert r[i] == sorted[i];
      assert sorted[i] in all;
      var k :| 0 <= k < |all| && all[k] == sorted[i];
    }
    assert DistinctIds(all);
    assert DistinctIds(sorted);
  }

  lemma HistoryKeepsMostRecent(t: Table, u: int, sorted: seq<HistoryRow>, n: nat, r: seq<HistoryRow>)
    requires Descending(sorted)
    requires n <= |sorted| && r == sorted[..n]
    requires forall id :: InHistory(t, u, id) ==> RowOf(t, id) in sorted
    ensures forall id :: InHistory(t, u, id) && (forall i :: 0 <= i < |r| ==> r[i].questionId != id)
                         ==> forall i :: 0 <= i < |r| ==> r[i].updatedAt >= t[id].updatedAt
  {
    forall id | InHistory(t, u, id) && (forall i :: 0 <= i < |r| ==> r[i].questionId != id)
      ensures forall i :: 0 <= i < |r| ==> r[i].updatedAt >= t[id].updatedAt
    {
      PrefixDominates(sorted, n, RowOf(t, id));
    }
  }

  /** Every row of the history filter takes part in the sort. */
  lemma HistoryRowSorted(t: Table, u: int, scan: seq<int>, ids: seq<int>, sorted: seq<HistoryRow>, id: int)
    requires Enumerates(t, scan)
    requires ids == HistoryIds(t, u, scan)
    requires sorted == SortDescending(ScanRows(t, ids))
    requires InHistory(t, u, id)
    ensures RowOf(t, id) in sorted
  {
    var all := ScanRows(t, ids);
    assert id in ids;
    var j :| 0 <= j < |ids| && ids[j] == id;
    assert all[j] == RowOf(t, id);
    assert all[j] in all;
  }

  /** A row left out of a prefix of a sorted sequence is no more recent
      than any row of that prefix. */
  lemma PrefixDominates(sorted: seq<HistoryRow>, n: nat, x: HistoryRow)
    requires Descending(sorted)
    requires n <= |sorted|
    requires x in sorted
    requires forall i :: 0 <= i < n ==> sorted[i].questionId != x.questionId
    ensures forall i :: 0 <= i < n ==> sorted[i].updatedAt >= x.updatedAt
  {
    var k :| 0 <= k < |sorted| && sorted[k] == x;
    assert sorted[k].questionId == x.questionId;
  }

  /** One line of the displayed history: the row joined with the question
      it belongs to. */
  datatype HistoryEntry = HistoryEntry(
    questionId: int,
    referenceCode: string,
    paper: string,
    correct: int,
    partial: int,
    incorrect: int,
    updatedAt: int)

  /** `SELECT reference_code, paper FROM questions WHERE id = ?`. */
  function LookupQuestion(bank: seq<Question>, id: int): (r: Option<Question>)
    ensures r.Some? ==> r.value in bank && r.value.id == id
    ensures r.None? <==> forall q :: q in bank ==> q.id != id
  {
    if |bank| == 0 then None
    else if bank[0].id == id then Some(bank[0])
    else
      assert forall q :: q in bank <==> q == bank[0] || q in bank[1..];
      LookupQuestion(bank[1..], id)
  }

  function EntryFor(row: HistoryRow, q: Question): HistoryEntry {
    HistoryEntry(row.questionId, q.referenceCode, q.paper, row.correct, row.partial, row.incorrect, row.updatedAt)
  }

  /** The history row an entry was made from. */
  function RowPart(e: HistoryEntry): HistoryRow {
    HistoryRow(e.questionId, e.correct, e.partial, e.incorrect, e.updatedAt)
  }

  /** The loop over the history rows: a row whose question is found
      becomes an entry, a row whose question is gone is dropped. */
  function Resolve(bank: seq<Question>, rows: seq<HistoryRow>): (r: seq<HistoryEntry>)
    ensures |r| <= |rows|
    ensures forall e :: e in r ==> && RowPart(e) in rows
                                   && LookupQuestion(bank, e.questionId).Some?
                                   && e == EntryFor(RowPart(e), LookupQuestion(bank, e.questionId).value)
    ensures forall i :: 0 <= i < |rows| && LookupQuestion(bank, rows[i].questionId).Some?
                        ==> EntryFor(rows[i], LookupQuestion(bank, rows[i].questionId).value) in r
  {
    if |rows| == 0 then []
    else
      var rest := Resolve(bank, rows[1..]);
      assert forall i :: 1 <= i < |rows| ==> rows[i] == rows[1..][i - 1];
      assert forall x :: x in rows[1..] ==> x in rows;
      match LookupQuestion(bank, rows[0].questionId)
      case None => rest
      case Some(q) => [EntryFor(rows[0], q)] + rest
  }

  /** One row gives one entry when its question exists and none when it
      is gone. */
  lemma ResolveSingle(bank: seq<Question>, x: HistoryRow)
    ensures Resolve(bank, [x]) == (match LookupQuestion(bank, x.questionId)
                                   case None => []
                                   case Some(q) => [EntryFor(x, q)])
  {
    assert [x][1..] == [];
  }

  /** The loop keeps row order: resolving two stretches of rows one after
      the other is resolving their concatenation. With `ResolveSingle` this
      fixes the entries: one per resolvable row, in row order. */
  lemma {:induction false} ResolveAppend(bank: seq<Question>, a: seq<HistoryRow>, b: seq<HistoryRow>)
    ensures Resolve(bank, a + b) == Resolve(bank, a) + Resolve(bank, b)
    decreases |a|
  {
    if |a| == 0 {
      assert a + b == b;
    } else {
      assert (a + b)[0] == a[0];
      assert (a + b)[1..] == a[1..] + b;
      ResolveAppend(bank, a[1..], b);
    }
  }

  predicate DistinctEntryIds(es: seq<HistoryEntry>) {
    forall i, j :: 0 <= i < j < |es| ==> es[i].questionId != es[j].questionId
  }

  /** No question is listed twice when no row repeats a question. */
  lemma {:induction false} ResolveDistinct(bank: seq<Question>, rows: seq<HistoryRow>)
    requires DistinctIds(rows)
    ensures DistinctEntryIds(Resolve(bank, rows))
  {
    if |rows| > 0 {
      assert DistinctIds(rows[1..]) by {
        forall i, j | 0 <= i < j < |rows[1..]| ensures rows[1..][i].questionId != rows[1..][j].questionId {
          assert rows[1..][i] == rows[i + 1] && rows[1..][j] == rows[j + 1];
        }
      }
      var rest := Resolve(bank, rows[1..]);
      ResolveDistinct(bank, rows[1..]);
      forall e | e in rest ensures e.questionId != rows[0].questionId {
        var i :| 0 <= i < |rows[1..]| && rows[1..][i] == RowPart(e);
        assert rows[1..][i] == rows[i + 1];
      }
      if LookupQuestion(bank, rows[0].questionId).Some? {
        var r := Resolve(bank, rows);
        assert r == [EntryFor(rows[0], LookupQuestion(bank, rows[0].questionId).value)] + rest;
        forall i, j | 0 <= i < j < |r| ensures r[i].questionId != r[j].questionId {
          assert r[j] == rest[j - 1] && r[j] in rest;
          if i > 0 {
            assert r[i] == rest[i - 1];
          }
        }
      }
    }
  }

  /** Dropping rows keeps the most-recent-first order. */
  predicate EntriesDescending(es: seq<HistoryEntry>) {
    forall i, j :: 0 <= i < j < |es| ==> es[i].updatedAt >= es[j].updatedAt
  }

  lemma {:induction false} ResolveKeepsOrder(bank: seq<Question>, rows: seq<HistoryRow>)
    requires Descending(rows)
    ensures EntriesDescending(Resolve(bank, rows))
  {
    if |rows| > 0 {
      assert Descending(rows[1..]) by {
        forall i, j | 0 <= i < j < |rows[1..]| ensures rows[1..][i].updatedAt >= rows[1..][j].updatedAt {
          assert rows[1..][i] == rows[i + 1] && rows[1..][j] == rows[j + 1];
        }
      }
      var rest := Resolve(bank, rows[1..]);
      ResolveKeepsOrder(bank, rows[1..]);
      forall e | e in rest ensures e.updatedAt <= rows[0].updatedAt {
        var i :| 0 <= i < |rows[1..]| && rows[1..][i] == RowPart(e);
        assert rows[1..][i] == rows[i + 1];
      }
      match LookupQuestion(bank, rows[0].questionId)
      case None =>
      case Some(q) =>
        ConsDescending(EntryFor(rows[0], q), rest);
    }
  }

  lemma ConsDescending(x: HistoryEntry, rest: seq<HistoryEntry>)
    requires EntriesDescending(rest)
    requires forall e :: e in rest ==> e.updatedAt <= x.updatedAt
    ensures EntriesDescending([x] + rest)
  {
    var r := [x] + rest;
    forall i, j | 0 <= i < j < |r| ensures r[i].updatedAt >= r[j].updatedAt {
      assert r[j] == rest[j - 1];
      if i > 0 {
        assert r[i] == rest[i - 1];
      }
    }
  }

  /** `show_history(subject, user_id)`: `None` for a subject other than
      "Chemistry" or "Physics", where no query is chosen and executing it
      fails. */
  function ShowHistory(banks: QuestionBanks, store: ProgressStore, subject: string, u: int, scan: seq<int>)
    : (r: Option<seq<HistoryEntry>>)
    requires Enumerates(store.TableOf(SubjectOf(subject)), scan)
    ensures r.None? <==> subject != "Chemistry" && subject != "Physics"
    ensures r.Some? ==> |r.value| <= HistoryLimit
    ensures r.Some? ==> forall i :: 0 <= i < |r.value| ==>
              && InHistory(store.TableOf(SubjectOf(subject)), u, r.value[i].questionId)
              && LookupQuestion(Bank(banks, subject), r.value[i].questionId).Some?
    ensures r.Some? ==> r.value == Resolve(Bank(banks, subject), RecentHistory(store.TableOf(SubjectOf(subject)), u, scan))
  {
    if subject != "Chemistry" && subject != "Physics" then None
    else
      var t := store.TableOf(SubjectOf(subject));
      var rows := RecentHistory(t, u, scan);
      var r := Resolve(Bank(banks, subject), rows);
      forall i | 0 <= i < |r|
        ensures InHistory(t, u, r[i].questionId) && LookupQuestion(Bank(banks, subject), r[i].questionId).Some?
      {
        assert r[i] in r;
      }
      Some(r)
  }

  /** The history lists exactly the rows of the history query whose
      question is in the bank, each as its own entry, most recent first and
      with no question twice. */
  lemma HistoryListsResolvableRows(banks: QuestionBanks, store: ProgressStore, subject: string, u: int, scan: seq<int>)
    requires subject == "Chemistry" || subject == "Physics"
    requires Enumerates(store.TableOf(SubjectOf(subject)), scan)
    ensures var rows := RecentHistory(store.TableOf(SubjectOf(subject)), u, scan);
      var entries := ShowHistory(banks, store, subject, u, scan).value;
      && (forall i :: 0 <= i < |rows| && LookupQuestion(Bank(banks, subject), rows[i].questionId).Some?
                      ==> EntryFor(rows[i], LookupQuestion(Bank(banks, subject), rows[i].questionId).value) in entries)
      && (forall e :: e in entries ==> && RowPart(e) in rows
                                       && LookupQuestion(Bank(banks, subject), e.questionId).Some?
                                       && e == EntryFor(RowPart(e), LookupQuestion(Bank(banks, subject), e.questionId).value))
      && EntriesDescending(entries)
      && DistinctEntryIds(entries)
  {
    var rows := RecentHistory(store.TableOf(SubjectOf(subject)), u, scan);
    assert ShowHistory(banks, store, subject, u, scan).value == Resolve(Bank(banks, subject), rows);
    ResolveKeepsOrder(Bank(banks, subject), rows);
    ResolveDistinct(Bank(banks, subject), rows);
  }

  // ---------------------------------------------------------------------
  // Analytics
  // ---------------------------------------------------------------------

  datatype Counter = Correct | PartiallyCorrect | Incorrect

  function CounterOf(row: Row, c: Counter): int {
    match c
    case Correct => row.correctCount
    case PartiallyCorrect => row.partiallyCorrectCount
    case Incorrect => row.incorrectCount
  }

  /** The keys of the scan whose row belongs to the user: `WHERE user_id = ?`. */
  function UserIds(t: Table, u: int, scan: seq<int>): (r: seq<int>)
    requires forall i :: 0 <= i < |scan| ==> scan[i] in t
    ensures |r| <= |scan|
    ensures forall i :: 0 <= i < |r| ==> r[i] in t && t[r[i]].userId == u
    ensures forall id :: id in r <==> id in scan && t[id].userId == u
    ensures (forall i, j :: 0 <= i < j < |scan| ==> scan[i] != scan[j]) ==> forall i, j :: 0 <= i < j < |r| ==> r[i] != r[j]
  {
    if |scan| == 0 then []
    else
      var rest := UserIds(t, u, scan[1..]);
      assert forall id :: id in scan <==> id == scan[0] || id in scan[1..];
      assert (forall i, j :: 0 <= i < j < |scan| ==> scan[i] != scan[j]) ==> scan[0] !in scan[1..];
      if t[scan[0]].userId == u then [scan[0]] + rest else rest
  }

  function Column(t: Table, ids: seq<int>, c: Counter): (r: seq<int>)
    requires forall i :: 0 <= i < |ids| ==> ids[i] in t
    ensures |r| == |ids|
    ensures forall i :: 0 <= i < |r| ==> r[i] == CounterOf(t[ids[i]], c)
  {
    if |ids| == 0 then [] else [CounterOf(t[ids[0]], c)] + Column(t, ids[1..], c)
  }

  function Sum(xs: seq<int>): int {
    if |xs| == 0 then 0 else xs[0] + Sum(xs[1..])
  }

  /** SQL `SUM`: NULL over no rows. */
  function SqlSum(xs: seq<int>): (r: Option<int>)
    ensures r.None? <==> |xs| == 0
  {
    if |xs| == 0 then None else Some(xs[0] + SqlSum(xs[1..]).GetOr(0))
  }

  /** `SUM(x) or 0` is the ordinary sum, with 0 for no rows. */
  lemma {:induction false} SqlSumOrZero(xs: seq<int>)
    ensures SqlSum(xs).GetOr(0) == Sum(xs)
  {
    if |xs| > 0 {
      SqlSumOrZero(xs[1..]);
    }
  }

  datatype Totals = Totals(correct: int, partial: int, incorrect: int)

  /** The user's column of one counter, in scan order. */
  function UserColumn(t: Table, u: int, scan: seq<int>, c: Counter): seq<int>
    requires forall i :: 0 <= i < |scan| ==> scan[i] in t
  {
    Column(t, UserIds(t, u, scan), c)
  }

  /** `show_analytics(subject, user_id)`: the three sums over the user's
      rows with NULL read as 0; `None` for a subject other than "Chemistry"
      or "Physics". */
  function ShowAnalytics(store: ProgressStore, subject: string, u: int, scan: seq<int>): (r: Option<Totals>)
    requires Enumerates(store.TableOf(SubjectOf(subject)), scan)
    ensures r.None? <==> subject != "Chemistry" && subject != "Physics"
    ensures r.Some? ==> var t := store.TableOf(SubjectOf(subject));
      r.value == Totals(Sum(UserColumn(t, u, scan, Correct)),
                        Sum(UserColumn(t, u, scan, PartiallyCorrect)),
                        Sum(UserColumn(t, u, scan, Incorrect)))
  {
    if subject != "Chemistry" && subject != "Physics" then None
    else
      var t := store.TableOf(SubjectOf(subject));
      SqlSumOrZero(UserColumn(t, u, scan, Correct));
      SqlSumOrZero(UserColumn(t, u, scan, PartiallyCorrect));
      SqlSumOrZero(UserColumn(t, u, scan, Incorrect));
      Some(Totals(SqlSum(UserColumn(t, u, scan, Correct)).GetOr(0),
                  SqlSum(UserColumn(t, u, scan, PartiallyCorrect)).GetOr(0),
                  SqlSum(UserColumn(t, u, scan, Incorrect)).GetOr(0)))
  }

  lemma {:induction false} SumOfZeros(xs: seq<int>)
    requires forall i :: 0 <= i < |xs| ==> xs[i] == 0
    ensures Sum(xs) == 0
  {
    if |xs| > 0 {
      SumOfZeros(xs[1..]);
    }
  }

  lemma {:induction false} SumNonNegative(xs: seq<int>)
    requires forall i :: 0 <= i < |xs| ==> xs[i] >= 0
    ensures Sum(xs) >= 0
  {
    if |xs| > 0 {
      SumNonNegative(xs[1..]);
    }
  }

  /** The user has a zero total for a counter that is zero in every one of
      the user's rows, and a non-negative total for one that is nowhere
      negative; a user without rows has zero totals. */
  lemma UserColumnBounds(t: Table, u: int, scan: seq<int>, c: Counter)
    requires Enumerates(t, scan)
    ensures (forall id :: id in t && t[id].userId == u ==> CounterOf(t[id], c) == 0)
            ==> Sum(UserColumn(t, u, scan, c)) == 0
    ensures (forall id :: id in t && t[id].userId == u ==> CounterOf(t[id], c) >= 0)
            ==> Sum(UserColumn(t, u, scan, c)) >= 0
  {
    var ids := UserIds(t, u, scan);
    var col := UserColumn(t, u, scan, c);
    if forall id :: id in t && t[id].userId == u ==> CounterOf(t[id], c) == 0 {
      forall i | 0 <= i < |col| ensures col[i] == 0 {
        assert ids[i] in t && t[ids[i]].userId == u;
      }
      SumOfZeros(col);
    }
    if forall id :: id in t && t[id].userId == u ==> CounterOf(t[id], c) >= 0 {
      forall i | 0 <= i < |col| ensures col[i] >= 0 {
        assert ids[i] in t && t[ids[i]].userId == u;
      }
      SumNonNegative(col);
    }
  }
}

=== FILE: wrappers.dfy ===
/** The optional value returned by the queries that may find nothing: a
    `fetchone()` that sees no row, or a Python `None`. */
module Wrappers {

  datatype Option<+T> = None | Some(value: T) {

    /** The value, or `default` when there is none (Python's `x or default`
        on a possibly-NULL aggregate). */
    function GetOr(default: T): T {
      match this
      case Some(v) => v
      case None => default
    }
  }
}
